=== FILE: README.md ===
# SmbOauthSession in Dafny

A model of `SmbOauthSession`, the Ruby client session for the StackMob API. The session logs a
user in and keeps the MAC access token and key it receives. It then signs every later request
with an `Authorization: MAC id="…",ts="…",nonce="…",mac="…"` header. The signature follows the
OAuth 2.0 MAC-token draft (draft-ietf-oauth-v2-http-mac, section 3.2.1): an HMAC-SHA1 over a
newline-framed normalized request string, in Base64 (section 6.8 of RFC 2045).

The model is functional. A session is an immutable `OauthSession.Session` record. Each Ruby
method that mutates the object becomes a function returning a `Step`. A `Step` holds either
the method's return value and the new state, or the exception raised and the state at the
point of the raise. The Ruby values the class handles are one `Values.Value` datatype: nil,
booleans, integers, strings, arrays and string-keyed hashes. This covers the configuration
hash, the parsed login response and the user record.

| file | module | what it holds |
|---|---|---|
| values.dfy | `Values` | Ruby values, truthiness, `obj[key]`, interpolation, `Array#flatten`, exceptions |
| text.dfy | `Text` | `join`, `chomp`, `rjust`, ASCII case operations, `Integer#to_s`, the `Fields` reader that undoes `join` |
| base64.dfy | `Base64` | `Base64.encode64` (60-character lines) and its decoder |
| library.dfy | `Library` | the library calls taken as parameters (HMAC-SHA1, SHA-1 hex, `CGI.escape`, JSON, `inspect`) |
| session.dfy | `OauthSession` | session state, `initialize`/`dump_config`, `set_hash_id`, `initiate`, login status handling, guarded user updates |
| signing.dfy | `Signing` | `create_base_string`, `mac_encode`, nonce, timestamp, `get_auth_header`, and the header reader `ParseHeader` |
| requests.dfy | `Requests` | header table, `generate_request`, the per-verb builders, the login request |
| login.dfy | `Login` | `login_as` with the transport as a parameter |

Inputs the Ruby code takes from the environment are explicit parameters:
- the clock (`Time.now.to_i`) is `now`;
- the random draw `rand(10 ** 10)` is `draw`, with `draw < 10^10`;
- the network is a `transport` function from request to `(code, body)`;
- the library calls are a `Library.Primitives` record of total functions;
- the HMAC digest type `Library.Digest` is fixed at 20 bytes.

Behaviour of the code that the model keeps:
- A 401 login response does not clear an earlier `access_token`, `mac_key` or `sm_user`:
  `initiate` only sets `@success` to false (lib/smb_oauth_session.rb:109-110), and `login_as`
  has already set `hash_id` (:80).
- The two error branches of `login_as` build `Net::HTTPServerError` / `Net::HTTPClientError`
  with one argument. These are response classes whose constructor takes three, so either
  branch raises ArgumentError (see "## Findings"). `Login.LoginAs` models that.
  `Login.LoginAsIntended` models the evidently intended errors.
- `hash_id` is set only after the 5xx / 4xx checks pass, so a raising login leaves it
  unchanged (lib/smb_oauth_session.rb:74-80).
- There is no explicit "unsigned request" check. Signing with a nil (or non-String) MAC key
  fails inside the HMAC call with `TypeError`. `Signing.MacEncode` and
  `Requests.GenerateRequest` return `Err(TypeError)` then.
- `authenticated?` can be true while `sm_user` is nil, when the success body lacks the user.
- The signing port is always the default "80", because `get_auth_header` never passes one.
- `initiate` assigns `@success` before parsing the body. So a body that fails to parse leaves
  the session marked authenticated with its old tokens.

## Model

| member | source | states |
|---|---|---|
| `Text.NatToS` | lib/smb_oauth_session.rb:184-185 | `Integer#to_s` of a non-negative number is all digits, has no leading zero, and reads back as the number |
| `Text.NatToSLength` | lib/smb_oauth_session.rb:185 | a number below 10^k has at most k digits, so `rjust(10, '0')` of the draw pads and never truncates |
| `Text.LeadingZeros` | lib/smb_oauth_session.rb:185 | left-padding a numeral with zeros keeps its value |
| `Text.PaddedNumeral` | lib/smb_oauth_session.rb:185 | a number below 10^k, right-justified to width k with zeros, is exactly k digits that read back as the number |
| `Text.RJust` | lib/smb_oauth_session.rb:185 | `rjust` pads on the left to the width with the pad character and keeps the string as the suffix |
| `Text.Chomp` | lib/smb_oauth_session.rb:213 | `chomp` returns a prefix of the string: it drops a trailing "\r\n" whole, otherwise one trailing "\n" or "\r", and shortens the string exactly when it ends in a line-ending character |
| `Text.IntToS` | lib/smb_oauth_session.rb:184 | `Integer#to_s` is the decimal numeral of a non-negative number and a minus sign before the numeral of a negative one |
| `Text.Join` | lib/smb_oauth_session.rb:199-206 | `join` of no pieces is empty, of one piece is that piece, and of more starts with the first piece and the separator |
| `Text.FieldsOfJoin` | lib/smb_oauth_session.rb:199-206 | joining separator-free pieces and splitting at the separator gives back the pieces |
| `Text.JoinSnoc` | lib/smb_oauth_session.rb:206 | joining one more piece appends the separator and that piece |
| `Text.Upcase` | lib/smb_oauth_session.rb:139 | `upcase` keeps the length and maps each character through the ASCII upper-case map |
| `Text.Downcase` | lib/smb_oauth_session.rb:136-142 | `downcase` (the header-name folding) keeps the length and maps each character through the ASCII lower-case map |
| `Text.Capitalize` | lib/smb_oauth_session.rb:133 | `capitalize` keeps the length, upper-cases the first character and lower-cases the rest |
| `Text.FirstAt` | lib/smb_oauth_session.rb:126 | the position found holds an occurrence of the substring, and no earlier position does |
| `Text.ReplaceFirst` | lib/smb_oauth_session.rb:126 | `s[sub] = v` replaces the first occurrence of `sub` by `v` and keeps the text on both sides; without an occurrence the string is unchanged |
| `Base64.StrictEncode` | lib/smb_oauth_session.rb:213 | the Base64 text of n bytes has 4·⌈n/3⌉ characters, all from the alphabet or `=` |
| `Base64.DecodeEncode` | lib/smb_oauth_session.rb:213 | decoding the Base64 text of any byte string gives the bytes back |
| `Base64.Encode64` | lib/smb_oauth_session.rb:213 | `encode64` is empty exactly for no bytes; for 1 to 45 bytes it is the unbroken encoding and one newline; any non-empty output ends in a newline; longer input starts with a complete 60-character line and its newline |
| `Base64.SingleLineChomp` | lib/smb_oauth_session.rb:213 | for up to 45 bytes `chomp` removes exactly the newline `encode64` added, leaving the unbroken encoding |
| `Base64.DigestLine` | lib/smb_oauth_session.rb:213 | a 20-byte HMAC-SHA1 digest encodes, after `chomp`, to 28 alphabet characters that decode back to the digest |
| `Base64.ChompedSingleLine` | lib/smb_oauth_session.rb:213 | for up to 45 bytes (a 20-byte digest included) the chomped text holds no newline and decodes to the bytes |
| `Base64.ChompKeepsInnerNewline` | lib/smb_oauth_session.rb:213 | for more than 45 bytes a newline remains inside the chomped text |
| `Values.Index` | lib/smb_oauth_session.rb:112-119 | `v['key']` on a Hash answers the entry or nil; on a String it answers the key when the key occurs as a substring, else nil; an Array or Integer raises TypeError; nil or a boolean raises NoMethodError |
| `Values.Interpolate` | lib/smb_oauth_session.rb:195 | `"#{v}"` is the string itself, empty for nil, and the decimal numeral for a non-negative integer |
| `Values.Flatten` | lib/smb_oauth_session.rb:166-168 | `flatten` leaves no nested array and returns an already flat list unchanged |
| `Values.FlattenNested` | lib/smb_oauth_session.rb:167 | a nested array contributes exactly its own flattened elements; with `FlattenAppend` and the flat-list clause this fixes the result |
| `Values.FlattenAppend` | lib/smb_oauth_session.rb:167 | flattening distributes over concatenation of the argument lists |
| `Values.FlattenIdempotent` | lib/smb_oauth_session.rb:167 | flattening twice is the same as flattening once |
| `OauthSession.Authenticated` | lib/smb_oauth_session.rb:48-50 | `authenticated?` answers `@success`: false while it is nil (before any login), and the stored boolean afterwards |
| `OauthSession.New` | lib/smb_oauth_session.rb:85-91 | construction reads the three credentials (nil when missing), defaults a nil or false version to "0", fixes the signing host to api.stackmob.com, and starts unauthenticated with no user or session key |
| `OauthSession.DumpConfig` | lib/smb_oauth_session.rb:97-104 | the dump has exactly the four keys api_key, access_token, mac_key and api_version, nil values included |
| `OauthSession.ConfigRoundTrip` | lib/smb_oauth_session.rb:85-104 | building a session from a dump reproduces the four signing fields, has the fixed host, and dumps to the same hash |
| `OauthSession.ConfigVersionDefault` | lib/smb_oauth_session.rb:89 | a dump whose version is nil or false rebuilds with version "0" |
| `OauthSession.SetHashId` | lib/smb_oauth_session.rb:52-54 | the session key becomes the SHA-1 hex digest of the name and nothing else changes |
| `OauthSession.HashIdDeterministic` | lib/smb_oauth_session.rb:52-54 | the session key depends on the user name only |
| `OauthSession.Initiate` | lib/smb_oauth_session.rb:108-116 | authenticated iff the status is below 400. A status of 400 or more changes only `@success`. Below 400, a parsed Hash body with a `stackmob` Hash yields the body's user, access token and MAC key. On any raise both tokens are unchanged. A malformed body raises ParserError. A parsed body whose `['stackmob']` or `['stackmob']['user']` raises leaves the session exactly as before except that it is authenticated, and raises that error |
| `OauthSession.HandleLoginResponse` | lib/smb_oauth_session.rb:74-81 | the intended handling: ServerError iff code ≥ 500 and ClientError iff 400 ≤ code < 500 with code ≠ 401, both leaving the session unchanged; otherwise the session key is set and the session is authenticated iff code < 400; a 401 changes only the key and `@success`; below 400 and on 401 the state, and whether and what it raises, are exactly those of `initiate` on the session with its key set |
| `OauthSession.HandleLoginResponseAsWritten` | lib/smb_oauth_session.rb:74-81 | as written: ArgumentError, with the session unchanged, iff code ≥ 500 or a 4xx other than 401; against the intended handling the same outcome kind and the same state, only the error class differs |
| `OauthSession.LoginErrorsConflated` | lib/smb_oauth_session.rb:75-77 | as written a 503 and a 404 raise the same ArgumentError, while the intended handling raises different errors for them |
| `OauthSession.SetSmUser` | lib/smb_oauth_session.rb:118-121 | for records of any kind: the current record's `['username']` is asked first and the new one's second, and an error from either is raised with nothing changed; when both answer, equal answers replace the record and return the new one, different answers return false and change nothing; the username never changes |
| `OauthSession.SetSmUserAttribute` | lib/smb_oauth_session.rb:123-127 | "username" and "password" answer false with no change. On a Hash user exactly the named key is set, every other key kept, and the value returned. On a String user: IndexError when the name does not occur, then TypeError for a non-String value, otherwise the value is returned and the first occurrence of the name is replaced by it. An Array user raises TypeError; a nil, boolean or integer user raises NoMethodError |
| `OauthSession.AttributeReadBack` | lib/smb_oauth_session.rb:123-127 | after an allowed update the attribute reads back as the value, and username and password read as before |
| `Signing.BaseString` | lib/smb_oauth_session.rb:198-207 | the base string is ts, nonce, method (default GET), URI, host and port (default 80), each newline-terminated, then an empty line, so it ends in "\n\n" |
| `Signing.JoinSix` | lib/smb_oauth_session.rb:199-206 | joining six fields with newlines puts one newline between consecutive fields |
| `Signing.BaseStringFields` | lib/smb_oauth_session.rb:198-207 | splitting the base string at newlines gives the six fields and two empty lines when no field holds a newline |
| `Signing.BaseStringExample` | lib/smb_oauth_session.rb:198-207 | for ts 1, nonce n0000000001, GET /user/bob on api.example.com the base string is "1\nn0000000001\nGET\n/user/bob\napi.example.com\n80\n\n" |
| `Signing.MacEncode` | lib/smb_oauth_session.rb:209-214 | succeeds iff a key is passed or the session key is a String, otherwise TypeError; the result is exactly the unbroken Base64 text of HMAC-SHA1(key, base string), 28 characters that decode back to the digest, the passed key taking precedence |
| `Signing.MacHasNoBreak` | lib/smb_oauth_session.rb:213 | the encoded MAC contains no newline and no double quote |
| `Signing.MakeNonce` | lib/smb_oauth_session.rb:185 | the nonce is "n" and exactly ten decimal digits whose value is the draw |
| `Signing.NonceInjective` | lib/smb_oauth_session.rb:185 | different draws give different nonces |
| `Signing.Nonce` | lib/smb_oauth_session.rb:185 | a supplied nonce is used verbatim; otherwise it is the nonce made from the draw |
| `Signing.Timestamp` | lib/smb_oauth_session.rb:184 | a supplied timestamp is used verbatim; otherwise a non-negative clock reading is rendered as its decimal numeral |
| `Signing.FormatHeader` | lib/smb_oauth_session.rb:195 | the header starts `MAC id="<id>",ts="`, ends `",mac="<mac>"`, and is 31 characters longer than its four values together; `ParseFormatHeader` reads the values back |
| `Signing.ParseHeader` | lib/smb_oauth_session.rb:195 | whatever the header reader accepts is exactly the formatted header of the attributes it returns |
| `Signing.ParseFormatHeader` | lib/smb_oauth_session.rb:195 | reading a formatted header gives back its id, ts, nonce and mac when none holds a double quote |
| `Signing.AuthHeader` | lib/smb_oauth_session.rb:183-196 | succeeds iff the MAC key is a String (else TypeError). The header is exactly `MAC id="…",ts="…",nonce="…",mac="…"` with the interpolated token, the supplied or generated ts and nonce, and the MAC of their base string. When those hold no double quote, a server parsing the header and re-signing from its ts and nonce gets its mac |
| `Signing.AuthHeaderDeterministic` | lib/smb_oauth_session.rb:183-196 | with ts and nonce supplied the header does not depend on the clock or the random draw |
| `Signing.GeneratedQuoteless` | lib/smb_oauth_session.rb:184-185 | a generated timestamp (clock after 1970) and nonce hold no double quote |
| `Requests.ParseVerb` | lib/smb_oauth_session.rb:133 | the capitalized-name lookup accepts a verb exactly when its upper-cased form is GET, POST or PUT, and then the upper-cased form is that verb's name |
| `Requests.SetHeader` | lib/smb_oauth_session.rb:142 | `request[name] = v` stores a truthy value under the down-cased name, removes the field for nil or false, and touches no other field |
| `Requests.ApplyHeaders` | lib/smb_oauth_session.rb:140-144 | after the caller headers, each field holds the last caller value given for it (case-insensitively; nil or false removes it) and otherwise its earlier value |
| `Requests.AcceptValue` | lib/smb_oauth_session.rb:136 | the Accept value starts with the vendor media type and "version="; a String version follows it verbatim, and a non-negative Integer version as its decimal numeral |
| `Requests.DefaultAcceptVersion` | lib/smb_oauth_session.rb:68 | a session built without a version accepts "application/vnd.stackmob+json; version=0" |
| `Requests.StandardHeaders` | lib/smb_oauth_session.rb:136-138 | the fixed fields are Accept with the vendor type and API version, the user agent, and the API key when it is set, and nothing else |
| `Requests.SignedHeaders` | lib/smb_oauth_session.rb:136-139 | before the caller headers a signed request holds exactly Accept, the API key when set, the user agent and the Authorization value |
| `Requests.GenerateRequest` | lib/smb_oauth_session.rb:132-146 | NameError for a verb other than get/post/put, TypeError without a String MAC key. Otherwise: the verb and path; a JSON body exactly when the body is truthy; Accept, API key, user agent and Authorization (signed with the upper-cased verb name) unless a caller header overrides them; the caller's last value for every field it names; no other fields |
| `Requests.SignedRequestVerifies` | lib/smb_oauth_session.rb:139 | a built request's Authorization header parses, and recomputing its MAC from the request's verb and path and the header's ts and nonce gives the header's mac |
| `Requests.GetSignedRequest` | lib/smb_oauth_session.rb:149-154 | a GET for the URI with no body, built iff the session has a String MAC key, and signed for "GET" and the URI unless a caller header replaces Authorization |
| `Requests.PostSignedRequest` | lib/smb_oauth_session.rb:157-162 | a POST for the URI whose body is the JSON of the parameters when they are truthy, signed for "POST" |
| `Requests.PutSignedRequest` | lib/smb_oauth_session.rb:172-177 | a PUT for the URI whose body is the JSON of the parameters when they are truthy, signed for "PUT" and the URI unless a caller header replaces Authorization |
| `Requests.PostRelatedObjects` | lib/smb_oauth_session.rb:166-168 | a POST to the base URI whose body is always the JSON of the flattened argument list, even an empty one, signed for "POST" and that URI |
| `Requests.LoginBody` | lib/smb_oauth_session.rb:71 | the login body is the three form fields username=, password= (each with the escaped value) and token_type=mac, joined with `&` |
| `Requests.LoginBodyFields` | lib/smb_oauth_session.rb:71 | the login body splits at `&` into username=…, password=… and token_type=mac when the escaped values hold no `&` |
| `Requests.LoginRequest` | lib/smb_oauth_session.rb:62-71 | the login request is a POST to /<user_type>/accessToken with the form body, Accept, the API key when set and the user agent, and no other field (no Authorization) |
| `Login.LoginAs` | lib/smb_oauth_session.rb:62-83 | as written: ArgumentError with the session untouched iff the status is ≥ 500 or a 4xx other than 401; otherwise the session key is the SHA-1 of the name, the session is authenticated iff the status is below 400, the state and any raise are exactly those of `initiate` on the response body, and the response is returned |
| `Login.DefaultUserTypePath` | lib/smb_oauth_session.rb:62-63 | without a user type the token is requested from /user/accessToken |
| `Login.LoginAsIntended` | lib/smb_oauth_session.rb:62-83 | the intended errors: ServerError iff ≥ 500, ClientError iff a 4xx other than 401; same state as `LoginAs` always and the same result whenever `LoginAs` returns |
| `Login.LoginRejected` | lib/smb_oauth_session.rb:74-81 | a 401 returns normally, unauthenticated, keeping earlier tokens and user and setting the session key |
| `Login.LoginServerFailure` | lib/smb_oauth_session.rb:74-75 | a 5xx raises ArgumentError (from the exception constructor) and the session is exactly as before |
| `Login.LoginThenSign` | lib/smb_oauth_session.rb:108-116 | a successful login with a String mac_key yields an authenticated session holding the body's user and tokens, on which a signed GET can be built |

## Findings

| source | as written | input that shows it | evidently intended | confidence | as-written member | corrected member |
|---|---|---|---|---|---|---|
| lib/smb_oauth_session.rb:75-77 | `raise Net::HTTPServerError.new("…")` and `raise Net::HTTPClientError.new("…")` build response objects, whose constructor takes (httpv, code, msg). The one-argument call raises ArgumentError | a login answered with 503, and one answered with 404: both raise the same ArgumentError | a server error for 5xx and a client error for other 4xx but 401, carrying the status | high, from Net::HTTPResponse's constructor; not executed | `OauthSession.HandleLoginResponseAsWritten` (exhibited by `OauthSession.LoginErrorsConflated`; used by `Login.LoginAs`) | `OauthSession.HandleLoginResponse` (used by `Login.LoginAsIntended`) |

## Left out

- TLS setup: the `Net::HTTP#use_ssl=` patch and certificate verification (lib/smb_oauth_session.rb:21-31, 64-66) configure a foreign library.
- Network I/O: sending requests, and `JSON.parse` of the replies to signed requests (lib/smb_oauth_session.rb:150-153, 158-161, 173-176). Login takes the transport as a function parameter.
- Library code is taken as parameters (`Library.Primitives`), not modelled: HMAC-SHA1, the SHA-1 hex digest, `CGI.escape`, `JSON.dump`, `JSON.parse`, and the `inspect` text of arrays and hashes. Only the 20-byte digest length is assumed.
- `Time.now` and `rand` are the parameters `now` and `draw`.
- `Requests.ParseVerb`: `Net::HTTP` also defines Delete, Head, Patch and other request classes, which `const_get` would accept. The model accepts only get/post/put in any letter case and answers NameError for everything else.
- The default headers `Net::HTTP` request constructors add (`Accept: */*`, `User-Agent: Ruby`, `Accept-Encoding`) are not modelled. Neither is the ArgumentError for an empty request path.
- Header values are stored as given, as Ruby 1.9's `Net::HTTPHeader` does. The `to_s` conversion and line-break checks of later versions are not modelled.
- Case operations fold ASCII letters only, as Ruby 1.9 does; Unicode case mapping is not modelled.
- `Requests.LoginRequest`: the path is "/" + user_type + "/accessToken". User types that `URI.parse` rejects, or that carry a query or fragment, are not modelled.
- `OauthSession.SetSmUserAttribute`: `set_sm_user` stores the caller's own object (lib/smb_oauth_session.rb:120) and `set_sm_user_attribute` updates `@sm_user` in place (:126). In Ruby a later attribute update therefore also shows in the hash the caller passed and in any record read earlier through `sm_user`. The model's values are immutable, so this sharing is not modelled. Symbol attribute names are taken as their string form.
- `Login.LoginAs`: the username and password are Strings. A caller may pass nil; the example application does so when its form carries only one of the two fields (example/sinatra/app.rb:129-138). `CGI.escape(nil)` then raises before the request is sent and before the session changes. That path is not modelled.
- `Signing.MacEncode`: an `opts[:key]` that is not a String is not modelled. `get_auth_header` never passes one.
- `@login_data` is assigned by `initiate` but never read, so it is not part of the state.
- The attribute writers `access_token=`, `mac_key=` and `sighost=` are plain record updates and have no member of their own.
- JSON numbers with a fraction (Ruby Floats) are not among the modelled values.
- Exceptions raised by the transport itself (connection refused, TLS failure) are not modelled.
- The Sinatra example application (example/sinatra/app.rb) is web-routing and cache glue around the class.

=== FILE: base64.dfy ===
/**
 Base64 as Ruby's `Base64.encode64` produces it (section 6.8 of RFC 2045):
 the standard alphabet with `=` padding, cut into lines of 60 characters
 (45 input bytes), each line ending in a newline. `Decode` reads the unbroken
 padded text back and is the partner every encoding property is stated against.
 */
module Base64 {
  import opened Values
  import Text

  type byte = b: int | 0 <= b < 256

  /** Bytes per encoded line of `pack("m")`. */
  const LineBytes: nat := 45

  function CharOf(i: nat): (c: char)
    requires i < 64
  {
    if i < 26 then ('A' as int + i) as char
    else if i < 52 then ('a' as int + (i - 26)) as char
    else if i < 62 then ('0' as int + (i - 52)) as char
    else if i == 62 then '+'
    else '/'
  }

  /** The 6-bit value a character of the alphabet stands for. */
  function SextetOf(c: char): (r: Option<nat>)
    ensures r.Some? ==> r.value < 64 && CharOf(r.value) == c
  {
    if 'A' <= c <= 'Z' then Some(c as int - 'A' as int)
    else if 'a' <= c <= 'z' then Some(c as int - 'a' as int + 26)
    else if '0' <= c <= '9' then Some(c as int - '0' as int + 52)
    else if c == '+' then Some(62)
    else if c == '/' then Some(63)
    else None
  }

  lemma SextetOfCharOf(i: nat)
    requires i < 64
    ensures SextetOf(CharOf(i)) == Some(i)
  {
  }

  /** A character that can appear in unbroken Base64 text. */
  predicate IsBase64Char(c: char) {
    SextetOf(c).Some? || c == '='
  }

  /** One group of one to three bytes as four characters, padded with `=`. */
  function EncodeGroup(b: seq<byte>): (r: string)
    requires 1 <= |b| <= 3
    ensures |r| == 4
  {
    var b0 := b[0];
    var b1 := if |b| > 1 then b[1] else 0;
    var b2 := if |b| > 2 then b[2] else 0;
    var c0 := CharOf(b0 / 4);
    var c1 := CharOf((b0 % 4) * 16 + b1 / 16);
    var c2 := CharOf((b1 % 16) * 4 + b2 / 64);
    var c3 := CharOf(b2 % 64);
    if |b| == 1 then [c0, c1, '=', '=']
    else if |b| == 2 then [c0, c1, c2, '=']
    else [c0, c1, c2, c3]
  }

  /** Base64 text with padding and without line breaks (`strict_encode64`). */
  function StrictEncode(b: seq<byte>): (r: string)
    ensures |r| == 4 * ((|b| + 2) / 3)
    ensures forall i :: 0 <= i < |r| ==> IsBase64Char(r[i])
    decreases |b|
  {
    if |b| == 0 then []
    else if |b| <= 3 then
      GroupChars(b);
      EncodeGroup(b)
    else
      GroupChars(b[..3]);
      var g := EncodeGroup(b[..3]);
      var rest := StrictEncode(b[3..]);
      AlphabetConcat(g, rest);
      GroupCount(|b|);
      g + rest
  }

  /** Text of alphabet characters stays so when two pieces are joined. */
  lemma AlphabetConcat(x: string, y: string)
    requires forall i :: 0 <= i < |x| ==> IsBase64Char(x[i])
    requires forall i :: 0 <= i < |y| ==> IsBase64Char(y[i])
    ensures forall i :: 0 <= i < |x + y| ==> IsBase64Char((x + y)[i])
  {
    forall i | 0 <= i < |x + y| ensures IsBase64Char((x + y)[i]) {
      if i < |x| { assert (x + y)[i] == x[i]; }
      else { assert (x + y)[i] == y[i - |x|]; }
    }
  }

  /** Three more bytes are one more group of four characters. */
  lemma GroupCount(n: nat)
    requires n > 3
    ensures 4 + 4 * ((n - 3 + 2) / 3) == 4 * ((n + 2) / 3)
  {
  }

  /** Every character of an encoded group belongs to the alphabet or is padding. */
  lemma GroupChars(b: seq<byte>)
    requires 1 <= |b| <= 3
    ensures forall i :: 0 <= i < 4 ==> IsBase64Char(EncodeGroup(b)[i])
  {
    forall i | 0 <= i < 4 ensures IsBase64Char(EncodeGroup(b)[i]) {
      ExtractSextet(b, i);
    }
  }

  lemma ExtractSextet(b: seq<byte>, i: nat)
    requires 1 <= |b| <= 3 && i < 4
    ensures IsBase64Char(EncodeGroup(b)[i])
  {
    var b0 := b[0];
    var b1 := if |b| > 1 then b[1] else 0;
    var b2 := if |b| > 2 then b[2] else 0;
    SextetOfCharOf(b0 / 4);
    SextetOfCharOf((b0 % 4) * 16 + b1 / 16);
    SextetOfCharOf((b1 % 16) * 4 + b2 / 64);
    SextetOfCharOf(b2 % 64);
  }

  /** Four characters back to the one, two or three bytes they encode. */
  function DecodeGroup(q: string): Option<seq<byte>>
    requires |q| == 4
  {
    var s0 := SextetOf(q[0]);
    var s1 := SextetOf(q[1]);
    var s2 := SextetOf(q[2]);
    var s3 := SextetOf(q[3]);
    if s0.None? || s1.None? then None
    else
      var x0 := s0.value * 4 + s1.value / 16;
      if q[2] == '=' && q[3] == '=' then Some([x0])
      else if s2.None? then None
      else
        var x1 := (s1.value % 16) * 16 + s2.value / 4;
        if q[3] == '=' then Some([x0, x1])
        else if s3.None? then None
        else Some([x0, x1, (s2.value % 4) * 64 + s3.value])
  }

  /**
   Unbroken padded Base64 text back to bytes; `None` for text of the wrong
   length or with characters outside the alphabet. The unused low bits of a
   padded last group are ignored, so `Decode` also accepts some text that
   `StrictEncode` never produces.
   */
  function Decode(s: string): Option<seq<byte>>
    decreases |s|
  {
    if |s| == 0 then Some([])
    else if |s| < 4 then None
    else if |s| == 4 then DecodeGroup(s)
    else
      match DecodeGroup(s[..4])
      case None => None
      case Some(g) =>
        if |g| != 3 then None
        else
          match Decode(s[4..])
          case None => None
          case Some(rest) => Some(g + rest)
  }

  lemma DecodeEncodeGroup(b: seq<byte>)
    requires 1 <= |b| <= 3
    ensures DecodeGroup(EncodeGroup(b)) == Some(b)
  {
    if |b| == 1 {
      DecodeEncodeOne(b[0]);
      assert b == [b[0]];
    } else if |b| == 2 {
      DecodeEncodeTwo(b[0], b[1]);
      assert b == [b[0], b[1]];
    } else {
      DecodeEncodeThree(b[0], b[1], b[2]);
      assert b == [b[0], b[1], b[2]];
    }
  }

  lemma DecodeEncodeOne(b0: byte)
    ensures DecodeGroup(EncodeGroup([b0])) == Some([b0])
  {
    var i0, i1 := b0 / 4, (b0 % 4) * 16;
    Recombine(b0, 0, 0);
    SextetOfCharOf(i0);
    SextetOfCharOf(i1);
    assert EncodeGroup([b0]) == [CharOf(i0), CharOf(i1), '=', '='];
  }

  lemma DecodeEncodeTwo(b0: byte, b1: byte)
    ensures DecodeGroup(EncodeGroup([b0, b1])) == Some([b0, b1])
  {
    var i0, i1, i2 := b0 / 4, (b0 % 4) * 16 + b1 / 16, (b1 % 16) * 4;
    Recombine(b0, b1, 0);
    SextetOfCharOf(i0);
    SextetOfCharOf(i1);
    SextetOfCharOf(i2);
    assert EncodeGroup([b0, b1]) == [CharOf(i0), CharOf(i1), CharOf(i2), '='];
  }

  lemma DecodeEncodeThree(b0: byte, b1: byte, b2: byte)
    ensures DecodeGroup(EncodeGroup([b0, b1, b2])) == Some([b0, b1, b2])
  {
    var i0, i1, i2, i3 := b0 / 4, (b0 % 4) * 16 + b1 / 16, (b1 % 16) * 4 + b2 / 64, b2 % 64;
    Recombine(b0, b1, b2);
    SextetOfCharOf(i0);
    SextetOfCharOf(i1);
    SextetOfCharOf(i2);
    SextetOfCharOf(i3);
    assert EncodeGroup([b0, b1, b2]) == [CharOf(i0), CharOf(i1), CharOf(i2), CharOf(i3)];
  }

  /** The four sextets cut from three bytes put the three bytes back together. */
  lemma Recombine(b0: byte, b1: byte, b2: byte)
    ensures (b0 / 4) * 4 + ((b0 % 4) * 16 + b1 / 16) / 16 == b0
    ensures (((b0 % 4) * 16 + b1 / 16) % 16) * 16 + ((b1 % 16) * 4 + b2 / 64) / 4 == b1
    ensures (((b1 % 16) * 4 + b2 / 64) % 4) * 64 + b2 % 64 == b2
  {
    DivMod16(b0 % 4, b1 / 16);
    DivMod4(b1 % 16, b2 / 64);
  }

  lemma DivMod16(hi: int, lo: int)
    requires 0 <= lo < 16
    ensures (hi * 16 + lo) / 16 == hi && (hi * 16 + lo) % 16 == lo
  {
  }

  lemma DivMod4(hi: int, lo: int)
    requires 0 <= lo < 4
    ensures (hi * 4 + lo) / 4 == hi && (hi * 4 + lo) % 4 == lo
  {
  }

  /** Decoding undoes encoding, for every byte string. */
  lemma {:induction false} DecodeEncode(b: seq<byte>)
    ensures Decode(StrictEncode(b)) == Some(b)
    decreases |b|
  {
    if |b| == 0 {
    } else if |b| <= 3 {
      DecodeEncodeGroup(b);
    } else {
      var e := StrictEncode(b);
      var g := EncodeGroup(b[..3]);
      assert e == g + StrictEncode(b[3..]);
      assert e[..4] == g;
      assert e[4..] == StrictEncode(b[3..]);
      DecodeEncodeGroup(b[..3]);
      DecodeEncode(b[3..]);
      assert b[..3] + b[3..] == b;
    }
  }

  /**
   `Base64.encode64` (`[b].pack("m")`): the encoding of each run of 45 bytes on
   a line of its own, every line ending in a newline; the empty string for no bytes.
   */
  function Encode64(b: seq<byte>): (r: string)
    ensures |b| == 0 <==> r == ""
    ensures 0 < |b| <= LineBytes ==> r == StrictEncode(b) + "\n"
    ensures |b| > 0 ==> r[|r| - 1] == '\n'
    // a longer input starts with its first 45 bytes as a complete line of 60 characters
    ensures |b| > LineBytes ==>
      |r| > 61 && r[..60] == StrictEncode(b[..LineBytes]) && r[60] == '\n'
    decreases |b|
  {
    if |b| == 0 then ""
    else if |b| <= LineBytes then StrictEncode(b) + "\n"
    else
      var first := StrictEncode(b[..LineBytes]);
      var rest := Encode64(b[LineBytes..]);
      FullLine(first, rest);
      first + "\n" + rest
  }

  /** No character of the alphabet, padding included, is a line-ending character. */
  lemma AlphabetNoBreak(c: char)
    requires IsBase64Char(c)
    ensures c != '\n' && c != '\r'
  {
  }

  /** A full 60-character line followed by its newline and at least one more character. */
  lemma FullLine(first: string, rest: string)
    requires |first| == 4 * ((LineBytes + 2) / 3) && |rest| > 0
    ensures var r := first + "\n" + rest;
      |r| > 61 && r[..60] == first && r[60] == '\n'
  {
    assert |first| == 60;
    assert (first + "\n" + rest)[..60] == first;
  }

  /** Up to 45 bytes: `chomp` takes off exactly the newline `encode64` added. */
  lemma SingleLineChomp(b: seq<byte>)
    requires |b| <= LineBytes
    ensures Text.Chomp(Encode64(b)) == StrictEncode(b)
  {
    var e := StrictEncode(b);
    if |b| > 0 {
      AlphabetNoBreak(e[|e| - 1]);
      Text.ChompNewline(e);
    }
  }

  lemma NoNewline(e: string)
    requires forall i :: 0 <= i < |e| ==> IsBase64Char(e[i])
    ensures '\n' !in e
  {
    assert !IsBase64Char('\n');
  }

  /**
   A 20-byte digest encodes to one line of 28 characters of the alphabet
   (padding included) that decodes back to the digest.
   */
  lemma DigestLine(b: seq<byte>)
    requires |b| == 20
    ensures var e := Text.Chomp(Encode64(b));
      && e == StrictEncode(b) && |e| == 28
      && Decode(e) == Some(b)
      && (forall i :: 0 <= i < |e| ==> IsBase64Char(e[i]))
  {
    var e := StrictEncode(b);
    assert |e| == 4 * ((20 + 2) / 3) == 28;
    SingleLineChomp(b);
    DecodeEncode(b);
  }

  /** A digest of up to 45 bytes encodes to a single line: after `chomp` no newline remains. */
  lemma ChompedSingleLine(b: seq<byte>)
    requires |b| <= LineBytes
    ensures '\n' !in Text.Chomp(Encode64(b))
    ensures Decode(Text.Chomp(Encode64(b))) == Some(b)
  {
    var e := StrictEncode(b);
    SingleLineChomp(b);
    NoNewline(e);
    DecodeEncode(b);
  }

  /** More than 45 bytes encode to several lines, so a newline stays inside after `chomp`. */
  lemma ChompKeepsInnerNewline(b: seq<byte>)
    requires |b| > LineBytes
    ensures '\n' in Text.Chomp(Encode64(b))
  {
    var r := Encode64(b);
    assert |Text.Chomp(r)| > 60;
    assert Text.Chomp(r)[60] == r[60];
  }
}

=== FILE: library.dfy ===
/**
 The library calls the session class makes and whose code is not part of this
 model: HMAC-SHA1 (RFC 2104), the SHA-1 hex digest, `CGI.escape`, `JSON.dump`,
 `JSON.parse` and the `inspect` text of arrays and hashes. They are supplied
 together as a record of total functions, so every result of the model is a
 function of them and of its explicit inputs.
 */
module Library {
  import opened Values
  import Base64

  /** An HMAC-SHA1 digest is always 20 bytes. */
  type Digest = d: seq<Base64.byte> | |d| == 20 witness seq(20, _ => 0)

  datatype Primitives = Primitives(
    hmacSha1: (string, string) -> Digest,   // OpenSSL::HMAC.digest(sha1, key, data)
    sha1Hex: string -> string,              // OpenSSL::Digest.hexdigest('sha1', s)
    cgiEscape: string -> string,            // CGI.escape(s)
    jsonDump: Value -> string,              // JSON.dump(v)
    jsonParse: string -> Option<Value>,     // JSON.parse(s); None when it raises ParserError
    inspect: Value -> string                // to_s of an Array or a Hash
  )
}

=== FILE: login.dfy ===
/**
 `login_as` end to end: the login request is handed to a transport (the
 network, supplied by the caller as a function from request to response), and
 the response is classified and read into the session.
 */
module Login {
  import opened Values
  import Library
  import OauthSession
  import Requests
  import Signing
  import Text

  /** The status code (`response.code.to_i`) and raw body of an HTTP response. */
  datatype Response = Response(code: int, body: string)

  /** The user type `login_as` uses when none is given. */
  const DefaultUserType: string := "user"

  /**
   `login_as(username, password, user_type)` as written: sends the login
   request; on a 5xx or on a 4xx other than 401 the exception constructor
   itself fails with ArgumentError, leaving the session untouched; otherwise
   it sets the session key, reads the response with `initiate` and returns
   the response.
   */
  function LoginAs(s: OauthSession.Session, p: Library.Primitives, username: string, password: string,
                   userType: string, transport: Requests.Request -> Response): (r: OauthSession.Step<Response>)
    ensures var resp := transport(Requests.LoginRequest(s, p, username, password, userType));
      && (r == OauthSession.Raised(ArgumentError, s) <==>
            resp.code >= 500 || (400 <= resp.code && resp.code != 401))
      && (resp.code < 400 || resp.code == 401 ==>
            && r.session.hashId == Some(p.sha1Hex(username))
            && (OauthSession.Authenticated(r.session) <==> resp.code < 400)
            && (r.Returned? ==> r.value == resp))
    // a status that does not raise at once is read by `initiate` after the session key is set
    ensures var resp := transport(Requests.LoginRequest(s, p, username, password, userType));
      resp.code < 400 || resp.code == 401 ==>
        var i := OauthSession.Initiate(OauthSession.SetHashId(s, p, username), p, resp.code, resp.body);
        && r.session == i.session
        && r.Raised? == i.Raised?
        && (r.Raised? ==> r.error == i.error)
  {
    var resp := transport(Requests.LoginRequest(s, p, username, password, userType));
    OauthSession.HandleLoginResponseAsWritten(s, p, username, resp, resp.code, resp.body)
  }

  /**
   `login_as` with the error handling it evidently intends: a server error for
   a 5xx and a client error for any other 4xx but 401, the session untouched.
   It agrees with `LoginAs` on every response that does not raise.
   */
  function LoginAsIntended(s: OauthSession.Session, p: Library.Primitives, username: string, password: string,
                           userType: string, transport: Requests.Request -> Response): (r: OauthSession.Step<Response>)
    ensures var resp := transport(Requests.LoginRequest(s, p, username, password, userType));
      && (r == OauthSession.Raised(ServerError(resp.code), s) <==> resp.code >= 500)
      && (r == OauthSession.Raised(ClientError(resp.code), s) <==> 400 <= resp.code < 500 && resp.code != 401)
    ensures var w := LoginAs(s, p, username, password, userType, transport);
      && r.session == w.session
      && (w.Returned? ==> r == w)
  {
    var resp := transport(Requests.LoginRequest(s, p, username, password, userType));
    OauthSession.HandleLoginResponse(s, p, username, resp, resp.code, resp.body)
  }

  /** Without a user type, `login_as` asks the `user` schema for the token. */
  lemma DefaultUserTypePath(s: OauthSession.Session, p: Library.Primitives, username: string, password: string)
    ensures Requests.LoginRequest(s, p, username, password, DefaultUserType).path == "/user/accessToken"
  {
  }

  /**
   A 401 is the ordinary "wrong credentials" outcome: no exception, not
   authenticated, and the tokens and user the session already had are kept.
   */
  lemma LoginRejected(s: OauthSession.Session, p: Library.Primitives, username: string, password: string,
                      userType: string, transport: Requests.Request -> Response)
    requires transport(Requests.LoginRequest(s, p, username, password, userType)).code == 401
    ensures var r := LoginAs(s, p, username, password, userType, transport);
      && r.Returned?
      && !OauthSession.Authenticated(r.session)
      && r.session.accessToken == s.accessToken && r.session.macKey == s.macKey
      && r.session.smUser == s.smUser
      && r.session.hashId == Some(p.sha1Hex(username))
  {
  }

  /** A server error surfaces as the constructor's ArgumentError and leaves the session exactly as it was. */
  lemma LoginServerFailure(s: OauthSession.Session, p: Library.Primitives, username: string, password: string,
                           userType: string, transport: Requests.Request -> Response)
    requires transport(Requests.LoginRequest(s, p, username, password, userType)).code >= 500
    ensures var r := LoginAs(s, p, username, password, userType, transport);
      r == OauthSession.Raised(ArgumentError, s)
  {
  }

  /**
   A successful login whose body carries a string MAC key yields an
   authenticated session with the body's user and tokens, on which every
   signed request can be built.
   */
  lemma LoginThenSign(s: OauthSession.Session, p: Library.Primitives, username: string, password: string,
                      userType: string, transport: Requests.Request -> Response,
                      m: map<string, Value>, uri: string, now: int, draw: nat)
    requires draw < Text.Pow10(Signing.NonceDigits)
    requires var resp := transport(Requests.LoginRequest(s, p, username, password, userType));
      && resp.code < 400
      && p.jsonParse(resp.body) == Some(Hash(m))
      && "stackmob" in m && m["stackmob"].Hash?
      && "mac_key" in m && m["mac_key"].Str?
    ensures var r := LoginAs(s, p, username, password, userType, transport);
      && r.Returned?
      && OauthSession.Authenticated(r.session)
      && r.session.smUser == Fetch(m["stackmob"].entries, "user")
      && r.session.accessToken == Fetch(m, "access_token")
      && r.session.macKey == m["mac_key"]
      && Requests.GetSignedRequest(r.session, p, uri, None, now, draw).Ok?
  {
    var resp := transport(Requests.LoginRequest(s, p, username, password, userType));
    var s1 := OauthSession.SetHashId(s, p, username);
    var i := OauthSession.Initiate(s1, p, resp.code, resp.body);
    assert i.Returned?;
    assert i.session.macKey == m["mac_key"];
  }
}

=== FILE: requests.dfy ===
/**
 Request construction: the header table of a `Net::HTTP` request, the master
 builder `generate_request`, the per-verb builders used by
 `get_signed_request`, `post_signed_request`, `put_signed_request` and
 `post_related_objects`, and the unsigned login request of `login_as`.
 Sending a request is left to the caller.
 */
module Requests {
  import opened Values
  import Text
  import Library
  import OauthSession
  import Signing

  // ---------------------------------------------------------------------------
  // Verbs

  /** The request classes the builder is used with (`Net::HTTP::Get`, `::Post`, `::Put`). */
  datatype Verb = GET | POST | PUT

  function VerbName(v: Verb): string {
    match v
    case GET => "GET"
    case POST => "POST"
    case PUT => "PUT"
  }

  lemma CharFold(c: char, u: char)
    requires 'A' <= u <= 'Z'
    ensures Text.UpChar(c) == u <==> Text.DownChar(c) == Text.DownChar(u)
  {
  }

  /** For an upper-case name, up-casing to it and capitalizing to its capitalized form agree. */
  lemma CaseFold(s: string, name: string)
    requires |name| >= 1 && forall i :: 0 <= i < |name| ==> 'A' <= name[i] <= 'Z'
    ensures Text.Upcase(s) == name <==> Text.Capitalize(s) == Text.Capitalize(name)
  {
    if |s| == |name| {
      forall i | 0 <= i < |s|
        ensures Text.UpChar(s[i]) == name[i] <==> Text.DownChar(s[i]) == Text.DownChar(name[i])
      {
        CharFold(s[i], name[i]);
      }
      if Text.Capitalize(s) == Text.Capitalize(name) {
        forall i | 1 <= i < |s| ensures Text.UpChar(s[i]) == name[i] {
          assert Text.Capitalize(s)[i] == Text.Capitalize(name)[i];
          assert Text.Capitalize(s)[1..][i - 1] == Text.Capitalize(name)[1..][i - 1];
        }
        assert Text.Capitalize(s)[0] == Text.Capitalize(name)[0];
        assert Text.Upcase(s) == name;
      }
      if Text.Upcase(s) == name {
        assert Text.Capitalize(s)[1..] == Text.Capitalize(name)[1..];
        assert Text.Capitalize(s) == [Text.Capitalize(s)[0]] + Text.Capitalize(s)[1..];
        assert Text.Capitalize(name) == [Text.Capitalize(name)[0]] + Text.Capitalize(name)[1..];
      }
    }
  }

  /**
   The verb lookup `Net::HTTP.const_get(rest_verb.capitalize)`, restricted to
   the three classes; any other name is a NameError. Accepted are exactly the
   verbs whose upper-cased form is a verb name.
   */
  function ParseVerb(restVerb: string): (r: Option<Verb>)
    ensures r.Some? ==> Text.Upcase(restVerb) == VerbName(r.value)
    ensures r.None? ==> forall v :: Text.Upcase(restVerb) != VerbName(v)
  {
    var cls := Text.Capitalize(restVerb);
    CaseFold(restVerb, "GET");
    CaseFold(restVerb, "POST");
    CaseFold(restVerb, "PUT");
    assert Text.Capitalize("GET") == "Get";
    assert Text.Capitalize("POST") == "Post";
    assert Text.Capitalize("PUT") == "Put";
    if cls == "Get" then Some(GET)
    else if cls == "Post" then Some(POST)
    else if cls == "Put" then Some(PUT)
    else None
  }

  // ---------------------------------------------------------------------------
  // Headers

  /** A request's header table, keyed by the down-cased field name as `Net::HTTPHeader` keeps it. */
  type Headers = map<string, Value>

  function Lookup(h: Headers, name: string): Option<Value> {
    if name in h then Some(h[name]) else None
  }

  /** `request[name] = v`: a nil or false value removes the field. */
  function SetHeader(h: Headers, name: string, v: Value): (r: Headers)
    ensures Lookup(r, Text.Downcase(name)) == if Truthy(v) then Some(v) else None
    ensures forall k :: k != Text.Downcase(name) ==> Lookup(r, k) == Lookup(h, k)
  {
    var key := Text.Downcase(name);
    if Truthy(v) then h[key := v] else h - {key}
  }

  /** The value of the last caller header that names `key` (in any case), if any does. */
  function LastFor(extra: seq<(string, Value)>, key: string): Option<Value>
    decreases |extra|
  {
    if |extra| == 0 then None
    else if Text.Downcase(extra[|extra| - 1].0) == key then Some(extra[|extra| - 1].1)
    else LastFor(extra[..|extra| - 1], key)
  }

  /** What a header table holds at `key` once the caller headers are applied over `h`. */
  function Overridden(h: Headers, extra: seq<(string, Value)>, key: string): Option<Value> {
    match LastFor(extra, key)
    case Some(v) => if Truthy(v) then Some(v) else None
    case None => Lookup(h, key)
  }

  lemma {:induction false} LastForCons(extra: seq<(string, Value)>, key: string)
    requires |extra| >= 1
    ensures LastFor(extra, key) ==
      if LastFor(extra[1..], key).Some? then LastFor(extra[1..], key)
      else if Text.Downcase(extra[0].0) == key then Some(extra[0].1)
      else None
    decreases |extra|
  {
    if |extra| > 1 {
      var init := extra[..|extra| - 1];
      assert extra[1..][..|extra[1..]| - 1] == init[1..];
      assert extra[1..][|extra[1..]| - 1] == extra[|extra| - 1];
      LastForCons(init, key);
    }
  }

  /**
   `opts[:headers].each { |k, v| request[k.to_s] = v }`: applied in order, so
   the last caller header for a field wins over earlier ones and over the defaults.
   */
  function ApplyHeaders(h: Headers, extra: seq<(string, Value)>): (r: Headers)
    ensures forall k :: Lookup(r, k) == Overridden(h, extra, k)
    decreases |extra|
  {
    if |extra| == 0 then h
    else
      var h1 := SetHeader(h, extra[0].0, extra[0].1);
      var r := ApplyHeaders(h1, extra[1..]);
      assert forall k :: Overridden(h1, extra[1..], k) == Overridden(h, extra, k) by {
        forall k ensures Overridden(h1, extra[1..], k) == Overridden(h, extra, k) {
          LastForCons(extra, k);
        }
      }
      r
  }

  /** The header fields the builder always writes, as stored (down-cased). */
  const AcceptKey: string := "accept"
  const ApiKeyKey: string := "x-stackmob-api-key"
  const UserAgentKey: string := "x-stackmob-user-agent"
  const AuthorizationKey: string := "authorization"

  // Each stored key is the down-cased field name the builder writes.

  lemma AcceptKeyDown()
    ensures Text.Downcase("Accept") == AcceptKey
  {
  }

  lemma ApiKeyKeyDown()
    ensures Text.Downcase("X-StackMob-API-Key") == ApiKeyKey
  {
  }

  lemma UserAgentKeyDown()
    ensures Text.Downcase("X-StackMob-User-Agent") == UserAgentKey
  {
  }

  lemma AuthorizationKeyDown()
    ensures Text.Downcase("Authorization") == AuthorizationKey
  {
  }

  /** The vendor media type every request accepts, up to the version number. */
  const AcceptMediaType: string := "application/vnd.stackmob+json; version="

  /** The `Accept` value: the vendor media type carrying the session's API version. */
  function AcceptValue(s: OauthSession.Session, p: Library.Primitives): (r: string)
    ensures AcceptMediaType <= r
    ensures s.apiVersion.Str? ==> r == AcceptMediaType + s.apiVersion.s
    ensures s.apiVersion.Int? && s.apiVersion.i >= 0 ==>
      var v := r[|AcceptMediaType|..];
      Text.IsDecimal(v) && Text.DecimalValue(v) == s.apiVersion.i
  {
    AcceptMediaType + Interpolate(s.apiVersion, p.inspect)
  }

  /** A session configured without a version accepts version 0. */
  lemma DefaultAcceptVersion(opts: map<string, Value>, p: Library.Primitives)
    requires !Truthy(Fetch(opts, "api_version"))
    ensures AcceptValue(OauthSession.New(opts), p) == "application/vnd.stackmob+json; version=0"
  {
  }

  /**
   The three fields every request gets, the login request included: Accept,
   the API key (absent when the session has none) and the user agent.
   */
  function StandardHeaders(s: OauthSession.Session, p: Library.Primitives): (h: Headers)
    ensures Lookup(h, AcceptKey) == Some(Str(AcceptValue(s, p)))
    ensures Lookup(h, ApiKeyKey) == if Truthy(s.apiKey) then Some(s.apiKey) else None
    ensures Lookup(h, UserAgentKey) == Some(Str(OauthSession.UserAgent))
    ensures forall k :: k != AcceptKey && k != ApiKeyKey && k != UserAgentKey ==> Lookup(h, k).None?
  {
    AcceptKeyDown();
    ApiKeyKeyDown();
    UserAgentKeyDown();
    var h0: Headers := map[];
    var h1 := SetHeader(h0, "Accept", Str(AcceptValue(s, p)));
    var h2 := SetHeader(h1, "X-StackMob-API-Key", s.apiKey);
    SetHeader(h2, "X-StackMob-User-Agent", Str(OauthSession.UserAgent))
  }

  /** The standard fields together with the `Authorization` header carrying `auth`. */
  function SignedHeaders(s: OauthSession.Session, p: Library.Primitives, auth: string): (h: Headers)
    ensures Lookup(h, AuthorizationKey) == Some(Str(auth))
    ensures Lookup(h, AcceptKey) == Some(Str(AcceptValue(s, p)))
    ensures Lookup(h, ApiKeyKey) == if Truthy(s.apiKey) then Some(s.apiKey) else None
    ensures Lookup(h, UserAgentKey) == Some(Str(OauthSession.UserAgent))
    ensures forall k :: k != AcceptKey && k != ApiKeyKey && k != UserAgentKey && k != AuthorizationKey
                        ==> Lookup(h, k).None?
  {
    AuthorizationKeyDown();
    SetHeader(StandardHeaders(s, p), "Authorization", Str(auth))
  }

  // ---------------------------------------------------------------------------
  // generate_request and the per-verb builders

  datatype Request = Request(verb: Verb, path: string, headers: Headers, body: Option<string>)

  /** `opts[:headers]`, or no caller headers when the option is absent. */
  function CallerHeaders(extra: Option<seq<(string, Value)>>): seq<(string, Value)> {
    if extra.Some? then extra.value else []
  }

  /**
   `generate_request(rest_verb, request_uri, request_body, opts)`: the request
   for the verb, the JSON body when one is given, the standard fields, the
   Authorization header signed with the upper-cased verb, and then the caller's
   headers over all of these. `now` and `draw` are the clock and the random draw
   the signature uses.
   */
  function GenerateRequest(s: OauthSession.Session, p: Library.Primitives, restVerb: string, uri: string,
                           body: Value, extra: Option<seq<(string, Value)>>, now: int, draw: nat): (r: Result<Request>)
    requires draw < Text.Pow10(Signing.NonceDigits)
    ensures r.Ok? <==> ParseVerb(restVerb).Some? && s.macKey.Str?
    ensures ParseVerb(restVerb).None? ==> r == Err(NameError)
    ensures ParseVerb(restVerb).Some? && !s.macKey.Str? ==> r == Err(TypeError)
    ensures r.Ok? ==>
      var v := ParseVerb(restVerb).value;
      var x := CallerHeaders(extra);
      var h := r.value.headers;
      && r.value.verb == v
      && r.value.path == uri
      && r.value.body == (if Truthy(body) then Some(p.jsonDump(body)) else None)
      && (LastFor(x, AuthorizationKey).None? ==>
            Lookup(h, AuthorizationKey)
              == Some(Str(Signing.AuthHeader(p, s, VerbName(v), uri, None, None, now, draw).value)))
      && (LastFor(x, AcceptKey).None? ==> Lookup(h, AcceptKey) == Some(Str(AcceptValue(s, p))))
      && (LastFor(x, UserAgentKey).None? ==> Lookup(h, UserAgentKey) == Some(Str(OauthSession.UserAgent)))
      && (LastFor(x, ApiKeyKey).None? ==>
            Lookup(h, ApiKeyKey) == if Truthy(s.apiKey) then Some(s.apiKey) else None)
      && (forall k :: LastFor(x, k).Some? ==>
            Lookup(h, k) == if Truthy(LastFor(x, k).value) then LastFor(x, k) else None)
      && (forall k ::
            (k != AcceptKey && k != ApiKeyKey && k != UserAgentKey && k != AuthorizationKey
             && LastFor(x, k).None?) ==> Lookup(h, k).None?)
  {
    match ParseVerb(restVerb)
    case None => Err(NameError)
    case Some(v) =>
      var payload := if Truthy(body) then Some(p.jsonDump(body)) else None;
      match Signing.AuthHeader(p, s, Text.Upcase(restVerb), uri, None, None, now, draw)
      case Err(e) => Err(e)
      case Ok(auth) =>
        Ok(Request(v, uri, ApplyHeaders(SignedHeaders(s, p, auth), CallerHeaders(extra)), payload))
  }

  /**
   Every request built on a session holding a MAC key carries a well-formed
   `MAC` header (unless the caller replaced it), and a server that reads the
   header's timestamp and nonce and signs the request's own verb and path for
   the session's host obtains the MAC the header carries.
   */
  lemma SignedRequestVerifies(s: OauthSession.Session, p: Library.Primitives, restVerb: string, uri: string,
                              body: Value, extra: Option<seq<(string, Value)>>, now: int, draw: nat)
    requires draw < Text.Pow10(Signing.NonceDigits) && now >= 0
    requires ParseVerb(restVerb).Some? && s.macKey.Str?
    requires LastFor(CallerHeaders(extra), AuthorizationKey).None?
    requires Signing.Quoteless(Interpolate(s.accessToken, p.inspect))
    ensures var req := GenerateRequest(s, p, restVerb, uri, body, extra, now, draw).value;
      var auth := Lookup(req.headers, AuthorizationKey);
      && auth.Some? && auth.value.Str?
      && var c := Signing.ParseHeader(auth.value.s);
      && c.Some?
      && c.value.id == Interpolate(s.accessToken, p.inspect)
      && Signing.MacEncode(p, s.macKey,
           Signing.BaseString(c.value.ts, c.value.nonce, Some(VerbName(req.verb)), req.path, s.sighost, None),
           None) == Ok(c.value.mac)
  {
    Signing.GeneratedQuoteless(now, draw);
  }

  /** `get_signed_request(uri, opts)`: a signed GET without a body. */
  function GetSignedRequest(s: OauthSession.Session, p: Library.Primitives, uri: string,
                            extra: Option<seq<(string, Value)>>, now: int, draw: nat): (r: Result<Request>)
    requires draw < Text.Pow10(Signing.NonceDigits)
    ensures r.Ok? <==> s.macKey.Str?
    ensures r.Ok? ==> r.value.verb == GET && r.value.path == uri && r.value.body.None?
    ensures r.Ok? && LastFor(CallerHeaders(extra), AuthorizationKey).None? ==>
      Lookup(r.value.headers, AuthorizationKey)
        == Some(Str(Signing.AuthHeader(p, s, "GET", uri, None, None, now, draw).value))
  {
    assert Text.Capitalize("get") == "Get";
    GenerateRequest(s, p, "get", uri, Bool(false), extra, now, draw)
  }

  /** `post_signed_request(uri, params)`: a signed POST, with no caller headers. */
  function PostSignedRequest(s: OauthSession.Session, p: Library.Primitives, uri: string,
                             params: Value, now: int, draw: nat): (r: Result<Request>)
    requires draw < Text.Pow10(Signing.NonceDigits)
    ensures r.Ok? <==> s.macKey.Str?
    ensures r.Ok? ==>
      && r.value.verb == POST && r.value.path == uri
      && r.value.body == (if Truthy(params) then Some(p.jsonDump(params)) else None)
      && Lookup(r.value.headers, AuthorizationKey)
           == Some(Str(Signing.AuthHeader(p, s, "POST", uri, None, None, now, draw).value))
  {
    assert Text.Capitalize("post") == "Post";
    GenerateRequest(s, p, "post", uri, params, None, now, draw)
  }

  /** `put_signed_request(uri, params, opts)`: a signed PUT. */
  function PutSignedRequest(s: OauthSession.Session, p: Library.Primitives, uri: string, params: Value,
                            extra: Option<seq<(string, Value)>>, now: int, draw: nat): (r: Result<Request>)
    requires draw < Text.Pow10(Signing.NonceDigits)
    ensures r.Ok? <==> s.macKey.Str?
    ensures r.Ok? ==>
      && r.value.verb == PUT && r.value.path == uri
      && r.value.body == (if Truthy(params) then Some(p.jsonDump(params)) else None)
    ensures r.Ok? && LastFor(CallerHeaders(extra), AuthorizationKey).None? ==>
      Lookup(r.value.headers, AuthorizationKey)
        == Some(Str(Signing.AuthHeader(p, s, "PUT", uri, None, None, now, draw).value))
  {
    assert Text.Capitalize("put") == "Put";
    GenerateRequest(s, p, "put", uri, params, extra, now, draw)
  }

  /**
   `post_related_objects(uri, *objs)`: a signed POST of the flattened argument
   list. An array is truthy even when empty, so the body is always present.
   */
  function PostRelatedObjects(s: OauthSession.Session, p: Library.Primitives, uri: string,
                              objs: seq<Value>, now: int, draw: nat): (r: Result<Request>)
    requires draw < Text.Pow10(Signing.NonceDigits)
    ensures r.Ok? <==> s.macKey.Str?
    ensures r.Ok? ==>
      && r.value.verb == POST && r.value.path == uri
      && r.value.body == Some(p.jsonDump(Arr(Flatten(objs))))
      && Lookup(r.value.headers, AuthorizationKey)
           == Some(Str(Signing.AuthHeader(p, s, "POST", uri, None, None, now, draw).value))
  {
    PostSignedRequest(s, p, uri, Arr(Flatten(objs)), now, draw)
  }

  // ---------------------------------------------------------------------------
  // The login request

  /** The form body `username=<esc>&password=<esc>&token_type=mac`. */
  function LoginBody(p: Library.Primitives, username: string, password: string): (r: string)
    ensures r == Text.Join(["username=" + p.cgiEscape(username), "password=" + p.cgiEscape(password),
                            "token_type=mac"], "&")
  {
    var r := "username=" + p.cgiEscape(username) + "&password=" + p.cgiEscape(password) + "&token_type=mac";
    Text.JoinThree("username=" + p.cgiEscape(username), "password=" + p.cgiEscape(password), "token_type=mac", "&");
    r
  }

  /**
   A server splitting the login body at `&` finds the three fields in order,
   since `CGI.escape` leaves no `&` in the escaped name and password.
   */
  lemma LoginBodyFields(p: Library.Primitives, username: string, password: string)
    requires '&' !in p.cgiEscape(username) && '&' !in p.cgiEscape(password)
    ensures Text.Fields(LoginBody(p, username, password), '&')
            == ["username=" + p.cgiEscape(username), "password=" + p.cgiEscape(password), "token_type=mac"]
  {
    var a := "username=" + p.cgiEscape(username);
    var b := "password=" + p.cgiEscape(password);
    var c := "token_type=mac";
    var parts := [a, b, c];
    assert '&' !in a && '&' !in b && '&' !in c;
    Text.FieldsOfJoin(parts, '&');
  }

  /**
   The request `login_as` sends: a POST to `/<user_type>/accessToken` with the
   standard fields, the form body, and no Authorization header.
   */
  function LoginRequest(s: OauthSession.Session, p: Library.Primitives, username: string,
                        password: string, userType: string): (r: Request)
    ensures r.verb == POST && r.path == "/" + userType + "/accessToken"
    ensures r.body == Some(LoginBody(p, username, password))
    ensures Lookup(r.headers, AuthorizationKey).None?
    ensures Lookup(r.headers, AcceptKey) == Some(Str(AcceptValue(s, p)))
    ensures Lookup(r.headers, UserAgentKey) == Some(Str(OauthSession.UserAgent))
    ensures Lookup(r.headers, ApiKeyKey) == if Truthy(s.apiKey) then Some(s.apiKey) else None
    ensures forall k :: k != AcceptKey && k != ApiKeyKey && k != UserAgentKey ==> Lookup(r.headers, k).None?
  {
    Request(POST, "/" + userType + "/accessToken", StandardHeaders(s, p), Some(LoginBody(p, username, password)))
  }
}

=== FILE: session.dfy ===
/**
 The state of an `SmbOauthSession` and the operations that change it:
 construction from a configuration hash and the matching `dump_config`,
 the session key derived from the user name, `initiate` (reading a login
 response), the status handling of `login_as`, and the guarded updates of
 the signed-in user's record.

 A Ruby method that mutates the object and may raise is modelled as a
 function returning a `Step`: either the value it returns with the state it
 leaves, or the exception it raises with the state at the point of the raise
 (assignments made before a raise stay made).
 */
module OauthSession {
  import opened Values
  import Library
  import Text

  /** The API host; also the host every request is signed for. */
  const ApiHost: string := "api.stackmob.com"

  /** The fixed `X-StackMob-User-Agent` value. */
  const UserAgent: string := "StackMob (JS; 0.9.2)"

  /** The configuration keys `dump_config` writes and `initialize` reads. */
  const ConfigKeys: set<string> := {"api_key", "access_token", "mac_key", "api_version"}

  datatype Session = Session(
    apiKey: Value,        // @api_key
    accessToken: Value,   // @access_token
    macKey: Value,        // @mac_key
    apiVersion: Value,    // @api_version
    sighost: string,      // @sighost
    success: Value,       // @success: nil until a login response is read
    hashId: Option<string>,  // @hash_id
    smUser: Value         // @sm_user
  )

  datatype Step<T> =
    | Returned(value: T, session: Session)
    | Raised(error: RubyError, session: Session)

  /** `authenticated?` answers `@success`, which is nil (false) before any login. */
  predicate Authenticated(s: Session): (b: bool)
    ensures s.success.Nil? ==> !b
    ensures s.success.Bool? ==> b == s.success.b
  {
    Truthy(s.success)
  }

  // ---------------------------------------------------------------------------
  // initialize / dump_config

  /** `SmbOauthSession.new(opts)`. */
  function New(opts: map<string, Value>): (s: Session)
    ensures s.apiKey == Fetch(opts, "api_key")
    ensures s.accessToken == Fetch(opts, "access_token")
    ensures s.macKey == Fetch(opts, "mac_key")
    ensures Truthy(s.apiVersion)
    ensures Truthy(Fetch(opts, "api_version")) ==> s.apiVersion == opts["api_version"]
    ensures !Truthy(Fetch(opts, "api_version")) ==> s.apiVersion == Str("0")
    ensures s.sighost == ApiHost
    ensures !Authenticated(s) && s.hashId.None? && s.smUser.Nil?
  {
    var version := Fetch(opts, "api_version");
    Session(
      apiKey := Fetch(opts, "api_key"),
      accessToken := Fetch(opts, "access_token"),
      macKey := Fetch(opts, "mac_key"),
      apiVersion := if Truthy(version) then version else Str("0"),
      sighost := ApiHost,
      success := Nil,
      hashId := None,
      smUser := Nil)
  }

  /** `dump_config`: the four signing-context fields, nil ones included. */
  function DumpConfig(s: Session): (m: map<string, Value>)
    ensures m.Keys == ConfigKeys
    ensures m["api_key"] == s.apiKey && m["access_token"] == s.accessToken
    ensures m["mac_key"] == s.macKey && m["api_version"] == s.apiVersion
  {
    map["api_key" := s.apiKey, "access_token" := s.accessToken,
        "mac_key" := s.macKey, "api_version" := s.apiVersion]
  }

  /** Two sessions sign alike when these agree (the host is fixed at construction). */
  predicate SameSigningContext(a: Session, b: Session) {
    a.apiKey == b.apiKey && a.accessToken == b.accessToken
    && a.macKey == b.macKey && a.apiVersion == b.apiVersion
  }

  /**
   Rebuilding a session from its dumped configuration reproduces its signing
   context, for every session whose version is set (every session `New` builds).
   */
  lemma ConfigRoundTrip(s: Session)
    requires Truthy(s.apiVersion)
    ensures SameSigningContext(New(DumpConfig(s)), s)
    ensures New(DumpConfig(s)).sighost == ApiHost
    ensures DumpConfig(New(DumpConfig(s))) == DumpConfig(s)
  {
  }

  /** A session whose version was nil or false in its dump comes back with version "0". */
  lemma ConfigVersionDefault(s: Session)
    requires !Truthy(s.apiVersion)
    ensures New(DumpConfig(s)).apiVersion == Str("0")
    ensures New(DumpConfig(s)).accessToken == s.accessToken
  {
  }

  // ---------------------------------------------------------------------------
  // set_hash_id, initiate, login_as

  /** `set_hash_id(key)`: the cache key is the SHA-1 hex digest of the user name. */
  function SetHashId(s: Session, p: Library.Primitives, key: string): (r: Session)
    ensures r.hashId == Some(p.sha1Hex(key))
    ensures r == s.(hashId := r.hashId)
  {
    s.(hashId := Some(p.sha1Hex(key)))
  }

  /** The session key depends on the user name alone, not on the session it is set on. */
  lemma HashIdDeterministic(s1: Session, s2: Session, p: Library.Primitives, name: string)
    ensures SetHashId(s1, p, name).hashId == SetHashId(s2, p, name).hashId
  {
  }

  /**
   `initiate(response)`: records whether the status is below 400 and, when it
   is, takes the user record, access token and MAC key from the parsed body.
   */
  function Initiate(s: Session, p: Library.Primitives, code: int, body: string): (r: Step<()>)
    ensures r.session.success == Bool(code < 400)
    ensures Authenticated(r.session) <==> code < 400
    ensures r.session.apiKey == s.apiKey && r.session.apiVersion == s.apiVersion
    ensures r.session.sighost == s.sighost && r.session.hashId == s.hashId
    // a refused login keeps whatever tokens and user the session held before
    ensures code >= 400 ==> r == Returned((), s.(success := Bool(false)))
    // the two tokens are replaced together or not at all
    ensures r.Raised? ==> r.session.accessToken == s.accessToken && r.session.macKey == s.macKey
    ensures r.Raised? ==> code < 400 && r.error in {ParserError, TypeError, NoMethodError}
    ensures code < 400 && p.jsonParse(body).None? ==> r.Raised? && r.error == ParserError
    ensures code < 400 && p.jsonParse(body).Some? && p.jsonParse(body).value.Hash? ==>
      var m := p.jsonParse(body).value.entries;
      var ns := Fetch(m, "stackmob");
      ns.Hash? ==>
        && r.Returned?
        && r.session.smUser == Fetch(ns.entries, "user")
        && r.session.accessToken == Fetch(m, "access_token")
        && r.session.macKey == Fetch(m, "mac_key")
    // a parsed body without a usable `stackmob` record raises after `@success` is
    // set, so the session is left authenticated with its earlier tokens and user
    ensures code < 400 && p.jsonParse(body).Some? ==>
      var ns := Index(p.jsonParse(body).value, "stackmob");
      && (ns.Err? ==> r == Raised(ns.error, s.(success := Bool(true))))
      && (ns.Ok? && Index(ns.value, "user").Err? ==>
            r == Raised(Index(ns.value, "user").error, s.(success := Bool(true))))
  {
    var s1 := s.(success := Bool(code < 400));
    if code >= 400 then Returned((), s1)
    else
      match p.jsonParse(body)
      case None => Raised(ParserError, s1)
      case Some(data) =>
        match Index(data, "stackmob")
        case Err(e) => Raised(e, s1)
        case Ok(ns) =>
          match Index(ns, "user")
          case Err(e) => Raised(e, s1)
          case Ok(user) =>
            var s2 := s1.(smUser := user);
            match Index(data, "access_token")
            case Err(e) => Raised(e, s2)
            case Ok(token) =>
              var s3 := s2.(accessToken := token);
              match Index(data, "mac_key")
              case Err(e) => Raised(e, s3)
              case Ok(key) => Returned((), s3.(macKey := key))
  }

  /**
   The status handling `login_as` is evidently meant to have, given the status
   code and body the transport returned: a 5xx raises a server error and any
   other 4xx but 401 raises a client error, both before anything is assigned;
   otherwise the session key is set and `initiate` reads the response.
   */
  function HandleLoginResponse<R>(s: Session, p: Library.Primitives, username: string,
                                  response: R, code: int, body: string): (r: Step<R>)
    ensures r == Raised(ServerError(code), s) <==> code >= 500
    ensures r == Raised(ClientError(code), s) <==> 400 <= code < 500 && code != 401
    ensures (code >= 500 || (400 <= code && code != 401)) ==> r.session == s
    ensures code < 400 || code == 401 ==>
      && r.session.hashId == Some(p.sha1Hex(username))
      && (Authenticated(r.session) <==> code < 400)
      && (r.Returned? ==> r.value == response)
    ensures code == 401 ==>
      r == Returned(response, s.(hashId := Some(p.sha1Hex(username)), success := Bool(false)))
    // below 400 (and on 401) the outcome is that of `initiate` on the session with its key set
    ensures code < 400 || code == 401 ==>
      var i := Initiate(SetHashId(s, p, username), p, code, body);
      && r.session == i.session
      && r.Raised? == i.Raised?
      && (r.Raised? ==> r.error == i.error)
  {
    if code >= 500 then Raised(ServerError(code), s)
    else if code >= 400 && code != 401 then Raised(ClientError(code), s)
    else
      match Initiate(SetHashId(s, p, username), p, code, body)
      case Returned(_, s') => Returned(response, s')
      case Raised(e, s') => Raised(e, s')
  }

  /**
   The status handling of `login_as` as written. `Net::HTTPServerError` and
   `Net::HTTPClientError` are response classes whose constructor takes the HTTP
   version, the code and the message, so the one-argument `.new` in either error
   branch raises ArgumentError before the intended `raise` happens. Every
   status that does not raise is handled as `HandleLoginResponse` handles it.
   */
  function HandleLoginResponseAsWritten<R>(s: Session, p: Library.Primitives, username: string,
                                           response: R, code: int, body: string): (r: Step<R>)
    ensures r == Raised(ArgumentError, s) <==> code >= 500 || (400 <= code && code != 401)
    // against the intended handling: the same outcome and state, only the error class differs
    ensures var intended := HandleLoginResponse(s, p, username, response, code, body);
      && r.Raised? == intended.Raised?
      && r.session == intended.session
      && (r.Returned? ==> r == intended)
      && (r.Raised? && r.error != ArgumentError ==> r == intended)
  {
    if code >= 500 || (code >= 400 && code != 401) then Raised(ArgumentError, s)
    else HandleLoginResponse(s, p, username, response, code, body)
  }

  /**
   As written, a server failure (503) and a refused request (404) raise the
   same exception, which the intended handling tells apart.
   */
  lemma LoginErrorsConflated<R>(s: Session, p: Library.Primitives, username: string, response: R, body: string)
    ensures HandleLoginResponseAsWritten(s, p, username, response, 503, body)
         == HandleLoginResponseAsWritten(s, p, username, response, 404, body)
         == Raised(ArgumentError, s)
    ensures HandleLoginResponse(s, p, username, response, 503, body).error
         != HandleLoginResponse(s, p, username, response, 404, body).error
  {
  }

  // ---------------------------------------------------------------------------
  // set_sm_user, set_sm_user_attribute

  /**
   `set_sm_user(new_user)`: replaces the user record only when the new one
   carries the same username; otherwise answers false and changes nothing.
   */
  function SetSmUser(s: Session, newUser: Value): (r: Step<Value>)
    ensures r.session == s || r.session == s.(smUser := newUser)
    ensures r.Raised? ==> r.session == s
    ensures s.smUser.Nil? || (s.smUser.Hash? && newUser.Nil?) ==> r == Raised(NoMethodError, s)
    ensures s.smUser.Hash? && newUser.Hash? ==>
      if Fetch(s.smUser.entries, "username") == Fetch(newUser.entries, "username")
      then r == Returned(newUser, s.(smUser := newUser))
      else r == Returned(Bool(false), s)
    // for any two records: the current record's `['username']` is asked first, then
    // the new one's; an error from either raises, otherwise the answers are compared
    ensures Index(s.smUser, "username").Err? ==> r == Raised(Index(s.smUser, "username").error, s)
    ensures Index(s.smUser, "username").Ok? && Index(newUser, "username").Err? ==>
      r == Raised(Index(newUser, "username").error, s)
    ensures Index(s.smUser, "username").Ok? && Index(newUser, "username").Ok? ==>
      if Index(s.smUser, "username") == Index(newUser, "username")
      then r == Returned(newUser, s.(smUser := newUser))
      else r == Returned(Bool(false), s)
    // whatever happens, the username of the record does not change
    ensures r.Returned? ==> Index(r.session.smUser, "username") == Index(s.smUser, "username")
  {
    match Index(s.smUser, "username")
    case Err(e) => Raised(e, s)
    case Ok(current) =>
      match Index(newUser, "username")
      case Err(e) => Raised(e, s)
      case Ok(proposed) =>
        if current != proposed then Returned(Bool(false), s)
        else Returned(newUser, s.(smUser := newUser))
  }

  /** The attribute names `set_sm_user_attribute` refuses to touch. */
  predicate Protected(name: string) {
    name == "username" || name == "password"
  }

  /**
   `set_sm_user_attribute(name, value)`: refuses the username and password with
   false; otherwise `@sm_user[name] = value`, which on a Hash sets that one key
   and on a String substitutes the first occurrence of `name`.
   */
  function SetSmUserAttribute(s: Session, name: string, value: Value): (r: Step<Value>)
    ensures Protected(name) ==> r == Returned(Bool(false), s)
    ensures r.Raised? ==> r.session == s
    ensures r.session == s.(smUser := r.session.smUser)
    ensures !Protected(name) && s.smUser.Hash? ==>
      var m := s.smUser.entries;
      && r.Returned? && r.value == value && r.session.smUser.Hash?
      && r.session.smUser.entries.Keys == m.Keys + {name}
      && r.session.smUser.entries[name] == value
      && (forall k :: k in m && k != name ==> r.session.smUser.entries[k] == m[k])
    ensures !Protected(name) && (s.smUser.Nil? || s.smUser.Bool? || s.smUser.Int?) ==>
      r == Raised(NoMethodError, s)
    ensures !Protected(name) && s.smUser.Arr? ==> r == Raised(TypeError, s)
    // a String record: the name must occur in it (IndexError first), then the value must be a String
    ensures !Protected(name) && s.smUser.Str? ==>
      var text := s.smUser.s;
      && (!Text.Occurs(name, text) ==> r == Raised(IndexError, s))
      && (Text.Occurs(name, text) && !value.Str? ==> r == Raised(TypeError, s))
      && (Text.Occurs(name, text) && value.Str? ==>
            && r.Returned? && r.value == value && r.session.smUser.Str?
            && (name <= text ==> r.session.smUser.s == value.s + text[|name|..])
            && var k := Text.FirstAt(name, text);
               r.session.smUser.s == text[..k] + value.s + text[k + |name|..])
  {
    if Protected(name) then Returned(Bool(false), s)
    else
      match s.smUser
      case Hash(m) => Returned(value, s.(smUser := Hash(m[name := value])))
      case Str(text) =>
        if !Text.Occurs(name, text) then Raised(IndexError, s)
        else if !value.Str? then Raised(TypeError, s)
        else Returned(value, s.(smUser := Str(Text.ReplaceFirst(text, name, value.s))))
      case Arr(_) => Raised(TypeError, s)
      case Int(_) => Raised(NoMethodError, s)
      case Bool(_) => Raised(NoMethodError, s)
      case Nil => Raised(NoMethodError, s)
  }

  /** An attribute that was set reads back, and the username and password stay as they were. */
  lemma AttributeReadBack(s: Session, name: string, value: Value)
    requires !Protected(name) && s.smUser.Hash?
    ensures var r := SetSmUserAttribute(s, name, value);
      && Index(r.session.smUser, name) == Ok(value)
      && Index(r.session.smUser, "username") == Index(s.smUser, "username")
      && Index(r.session.smUser, "password") == Index(s.smUser, "password")
  {
  }
}

=== FILE: signing.dfy ===
/**
 MAC request signing as `SmbOauthSession` does it, after the normalized request
 string of the OAuth 2.0 MAC-token draft (draft-ietf-oauth-v2-http-mac,
 section 3.2.1): the base string, its HMAC-SHA1 in Base64, the nonce, and the
 `Authorization: MAC ...` header value. `ParseHeader` is the reader a server
 applies to that header; the properties are stated against it.
 */
module Signing {
  import opened Values
  import Text
  import Base64
  import Library
  import OauthSession

  // ---------------------------------------------------------------------------
  // create_base_string

  /**
   `create_base_string`: timestamp, nonce, method (default "GET"), request URI,
   host and port (default "80") joined by newlines, then an empty ext line.
   */
  function BaseString(ts: string, nonce: string, httpMethod: Option<string>, uri: string,
                      host: string, port: Option<string>): (r: string)
    ensures var m := if httpMethod.Some? then httpMethod.value else "GET";
            var pt := if port.Some? then port.value else "80";
            r == ts + "\n" + nonce + "\n" + m + "\n" + uri + "\n" + host + "\n" + pt + "\n\n"
    ensures |r| >= 7 && r[|r| - 2..] == "\n\n"
  {
    var m := if httpMethod.Some? then httpMethod.value else "GET";
    var pt := if port.Some? then port.value else "80";
    JoinSix(ts, nonce, m, uri, host, pt);
    Text.Join([ts, nonce, m, uri, host, pt], "\n") + "\n\n"
  }

  lemma JoinSix(a: string, b: string, c: string, d: string, e: string, f: string)
    ensures Text.Join([a, b, c, d, e, f], "\n") == a + "\n" + b + "\n" + c + "\n" + d + "\n" + e + "\n" + f
  {
    Text.JoinSnoc([a], b, "\n");
    assert [a] + [b] == [a, b];
    Text.JoinSnoc([a, b], c, "\n");
    assert [a, b] + [c] == [a, b, c];
    Text.JoinSnoc([a, b, c], d, "\n");
    assert [a, b, c] + [d] == [a, b, c, d];
    Text.JoinSnoc([a, b, c, d], e, "\n");
    assert [a, b, c, d] + [e] == [a, b, c, d, e];
    Text.JoinSnoc([a, b, c, d, e], f, "\n");
    assert [a, b, c, d, e] + [f] == [a, b, c, d, e, f];
  }

  /**
   A server that splits the base string at newlines gets back the six fields
   and the two empty trailing lines, provided no field itself holds a newline.
   */
  lemma BaseStringFields(ts: string, nonce: string, httpMethod: Option<string>, uri: string,
                         host: string, port: Option<string>)
    requires var m := if httpMethod.Some? then httpMethod.value else "GET";
             var pt := if port.Some? then port.value else "80";
             forall f :: f in [ts, nonce, m, uri, host, pt] ==> '\n' !in f
    ensures var m := if httpMethod.Some? then httpMethod.value else "GET";
            var pt := if port.Some? then port.value else "80";
            Text.Fields(BaseString(ts, nonce, httpMethod, uri, host, port), '\n')
              == [ts, nonce, m, uri, host, pt, "", ""]
  {
    var m := if httpMethod.Some? then httpMethod.value else "GET";
    var pt := if port.Some? then port.value else "80";
    var parts := [ts, nonce, m, uri, host, pt, "", ""];
    assert forall i :: 0 <= i < |parts| ==> '\n' !in parts[i] by {
      forall i | 0 <= i < |parts| ensures '\n' !in parts[i] {
        if i < 6 {
          assert parts[i] in [ts, nonce, m, uri, host, pt];
        }
      }
    }
    JoinEight(ts, nonce, m, uri, host, pt);
    assert Text.Join(parts, "\n") == BaseString(ts, nonce, httpMethod, uri, host, port);
    Text.FieldsOfJoin(parts, '\n');
  }

  /** The two empty lines that end the base string are two more empty fields. */
  lemma JoinEight(a: string, b: string, c: string, d: string, e: string, f: string)
    ensures Text.Join([a, b, c, d, e, f, "", ""], "\n") == Text.Join([a, b, c, d, e, f], "\n") + "\n\n"
  {
    var six := [a, b, c, d, e, f];
    Text.JoinSnoc(six, "", "\n");
    assert six + [""] == [a, b, c, d, e, f, ""];
    Text.JoinSnoc(six + [""], "", "\n");
    assert six + [""] + [""] == [a, b, c, d, e, f, "", ""];
  }

  /** A worked example: GET /user/bob at timestamp 1 on api.example.com, default port. */
  lemma BaseStringExample()
    ensures BaseString("1", "n0000000001", Some("GET"), "/user/bob", "api.example.com", None)
            == "1\nn0000000001\nGET\n/user/bob\napi.example.com\n80\n\n"
  {
    assert "1" + "\n" + "n0000000001" + "\n" + "GET" == "1\nn0000000001\nGET";
    assert "1\nn0000000001\nGET" + "\n" + "/user/bob" + "\n" + "api.example.com"
        == "1\nn0000000001\nGET\n/user/bob\napi.example.com";
  }

  // ---------------------------------------------------------------------------
  // mac_encode

  /**
   `mac_encode(base_string, opts)`: HMAC-SHA1 of the base string under
   `opts[:key]`, or the session's MAC key when no key is given, Base64-encoded
   with the trailing newline chomped. The HMAC call raises TypeError when the
   key it receives is not a String (a session that never logged in has a nil key).
   */
  function MacEncode(p: Library.Primitives, macKey: Value, base: string, key: Option<string>): (r: Result<string>)
    ensures r.Ok? <==> (key.Some? || macKey.Str?)
    ensures r.Err? ==> r.error == TypeError
    ensures r.Ok? ==>
      var k := if key.Some? then key.value else macKey.s;
      var digest: seq<Base64.byte> := p.hmacSha1(k, base);
      && r.value == Base64.StrictEncode(digest)
      && Base64.Decode(r.value) == Some(digest)
      && |r.value| == 28
      && (forall i :: 0 <= i < |r.value| ==> Base64.IsBase64Char(r.value[i]))
  {
    if key.None? && !macKey.Str? then Err(TypeError)
    else
      var secret := if key.Some? then key.value else macKey.s;
      var digest := p.hmacSha1(secret, base);
      Base64.DigestLine(digest);
      Ok(Text.Chomp(Base64.Encode64(digest)))
  }

  /** The encoded MAC carries no newline and no double quote, so it fits one header line. */
  lemma MacHasNoBreak(p: Library.Primitives, macKey: Value, base: string, key: Option<string>)
    requires MacEncode(p, macKey, base, key).Ok?
    ensures '\n' !in MacEncode(p, macKey, base, key).value
    ensures '"' !in MacEncode(p, macKey, base, key).value
  {
    var m := MacEncode(p, macKey, base, key).value;
    assert !Base64.IsBase64Char('\n') && !Base64.IsBase64Char('"');
    assert forall i :: 0 <= i < |m| ==> Base64.IsBase64Char(m[i]);
  }

  // ---------------------------------------------------------------------------
  // Nonce and timestamp

  /** The random draw is `rand(10 ** 10)`: below ten to the tenth. */
  const NonceDigits: nat := 10

  /**
   The nonce `"n" + rand(10 ** 10).to_s.rjust(10, '0')` for a given draw:
   "n" and ten decimal digits that read back as the draw.
   */
  function MakeNonce(draw: nat): (r: string)
    requires draw < Text.Pow10(NonceDigits)
    ensures |r| == 1 + NonceDigits && r[0] == 'n'
    ensures Text.IsDecimal(r[1..]) && Text.DecimalValue(r[1..]) == draw
  {
    var padded := Text.RJust(Text.NatToS(draw), NonceDigits, '0');
    Text.PaddedNumeral(draw, NonceDigits);
    var r := "n" + padded;
    assert r[1..] == padded;
    r
  }

  /** Different draws give different nonces. */
  lemma NonceInjective(a: nat, b: nat)
    requires a < Text.Pow10(NonceDigits) && b < Text.Pow10(NonceDigits)
    requires MakeNonce(a) == MakeNonce(b)
    ensures a == b
  {
  }

  /** The timestamp `Time.now.to_i.to_s` for the clock reading `now`, or the one supplied. */
  function Timestamp(ts: Option<string>, now: int): (r: string)
    ensures ts.Some? ==> r == ts.value
    ensures ts.None? && now >= 0 ==> Text.IsDecimal(r) && Text.DecimalValue(r) == now
  {
    if ts.Some? then ts.value else Text.IntToS(now)
  }

  /** The nonce supplied, or the one made from the draw. */
  function Nonce(nonce: Option<string>, draw: nat): (r: string)
    requires draw < Text.Pow10(NonceDigits)
    ensures nonce.Some? ==> r == nonce.value
    ensures nonce.None? ==> r == MakeNonce(draw)
  {
    if nonce.Some? then nonce.value else MakeNonce(draw)
  }

  // ---------------------------------------------------------------------------
  // The Authorization header

  /** The four attributes of a `MAC` authorization header. */
  datatype Credentials = Credentials(id: string, ts: string, nonce: string, mac: string)

  /** `%Q[MAC id="…",ts="…",nonce="…",mac="…"]`: the four values in order, each in double quotes. */
  function FormatHeader(c: Credentials): (r: string)
    ensures "MAC id=\"" + c.id + "\",ts=\"" <= r
    ensures |r| == |c.id| + |c.ts| + |c.nonce| + |c.mac| + 31
    ensures r[|r| - |c.mac| - 8..] == "\",mac=\"" + c.mac + "\""
  {
    "MAC id=\"" + c.id + "\",ts=\"" + c.ts + "\",nonce=\"" + c.nonce + "\",mac=\"" + c.mac + "\""
  }

  /** The header read attribute by attribute: each value is followed by its closing quote. */
  lemma FormatHeaderShape(c: Credentials)
    ensures FormatHeader(c) == "MAC id=\"" + c.id + "\"" + (",ts=\"" + c.ts + "\"" +
              (",nonce=\"" + c.nonce + "\"" + (",mac=\"" + c.mac + "\"" + "")))
  {
    assert "\",ts=\"" == "\"" + ",ts=\"";
    assert "\",nonce=\"" == "\"" + ",nonce=\"";
    assert "\",mac=\"" == "\"" + ",mac=\"";
  }

  predicate Quoteless(s: string) {
    '"' !in s
  }

  /** Splits `s` at its first double quote, if it has one. */
  function UpToQuote(s: string): (r: Option<(string, string)>)
    ensures r.Some? ==> Quoteless(r.value.0) && s == r.value.0 + "\"" + r.value.1
    decreases |s|
  {
    if |s| == 0 then None
    else if s[0] == '"' then Some(("", s[1..]))
    else
      match UpToQuote(s[1..])
      case None => None
      case Some((v, rest)) => Some(([s[0]] + v, rest))
  }

  lemma {:induction false} UpToQuoteOf(v: string, rest: string)
    requires Quoteless(v)
    ensures UpToQuote(v + "\"" + rest) == Some((v, rest))
    decreases |v|
  {
    var s := v + "\"" + rest;
    if |v| == 0 {
      assert s == "\"" + rest;
      assert s[1..] == rest;
    } else {
      assert s[0] == v[0];
      assert s[1..] == v[1..] + "\"" + rest;
      UpToQuoteOf(v[1..], rest);
      assert [v[0]] + v[1..] == v;
    }
  }

  /** Reads `<tag>"<value>"` off the front of `s`, returning the value and the rest. */
  function Attribute(s: string, tag: string): (r: Option<(string, string)>)
    ensures r.Some? ==> Quoteless(r.value.0) && s == tag + r.value.0 + "\"" + r.value.1
  {
    if tag <= s then
      match UpToQuote(s[|tag|..])
      case None => None
      case Some((v, rest)) =>
        assert s == tag + s[|tag|..];
        Some((v, rest))
    else None
  }

  lemma AttributeOf(tag: string, v: string, rest: string)
    requires Quoteless(v)
    ensures Attribute(tag + v + "\"" + rest, tag) == Some((v, rest))
  {
    var s := tag + v + "\"" + rest;
    assert tag <= s;
    assert s[|tag|..] == v + "\"" + rest;
    UpToQuoteOf(v, rest);
  }

  /** The header reader: the inverse of `FormatHeader` on quote-free attributes. */
  function ParseHeader(h: string): (r: Option<Credentials>)
    ensures r.Some? ==> FormatHeader(r.value) == h
  {
    match Attribute(h, "MAC id=\"")
    case None => None
    case Some((id, r1)) =>
      match Attribute(r1, ",ts=\"")
      case None => None
      case Some((ts, r2)) =>
        match Attribute(r2, ",nonce=\"")
        case None => None
        case Some((nonce, r3)) =>
          match Attribute(r3, ",mac=\"")
          case None => None
          case Some((mac, r4)) =>
            if r4 == "" then
              FormatHeaderShape(Credentials(id, ts, nonce, mac));
              Some(Credentials(id, ts, nonce, mac))
            else None
  }

  /** Formatting then parsing a header gives back its attributes when none holds a quote. */
  lemma ParseFormatHeader(c: Credentials)
    requires Quoteless(c.id) && Quoteless(c.ts) && Quoteless(c.nonce) && Quoteless(c.mac)
    ensures ParseHeader(FormatHeader(c)) == Some(c)
  {
    var r4 := "";
    var r3 := ",mac=\"" + c.mac + "\"" + r4;
    var r2 := ",nonce=\"" + c.nonce + "\"" + r3;
    var r1 := ",ts=\"" + c.ts + "\"" + r2;
    FormatHeaderShape(c);
    AttributeOf("MAC id=\"", c.id, r1);
    AttributeOf(",ts=\"", c.ts, r2);
    AttributeOf(",nonce=\"", c.nonce, r3);
    AttributeOf(",mac=\"", c.mac, r4);
  }

  /**
   `get_auth_header(method, request_uri, opts)`: signs the base string built
   from the timestamp and nonce (supplied or drawn), the method, the URI and the
   session's signing host with the default port, and places the access token,
   timestamp, nonce and MAC in the header. `now` is the clock and `draw` the
   value of `rand(10 ** 10)`.
   */
  function AuthHeader(p: Library.Primitives, s: OauthSession.Session, httpMethod: string, uri: string,
                      ts: Option<string>, nonce: Option<string>, now: int, draw: nat): (r: Result<string>)
    requires draw < Text.Pow10(NonceDigits)
    ensures r.Ok? <==> s.macKey.Str?
    ensures r.Err? ==> r.error == TypeError
    // the header carries the interpolated token, the timestamp, the nonce and the MAC of the base string
    ensures r.Ok? ==>
      var t := Timestamp(ts, now);
      var n := Nonce(nonce, draw);
      var mac := MacEncode(p, s.macKey, BaseString(t, n, Some(httpMethod), uri, s.sighost, None), None);
      && mac.Ok?
      && r.value == FormatHeader(Credentials(Interpolate(s.accessToken, p.inspect), t, n, mac.value))
    // what a server reads from the header lets it recompute the same MAC
    ensures r.Ok? && Quoteless(Interpolate(s.accessToken, p.inspect))
            && Quoteless(Timestamp(ts, now)) && Quoteless(Nonce(nonce, draw)) ==>
      var c := ParseHeader(r.value);
      && c.Some?
      && c.value.id == Interpolate(s.accessToken, p.inspect)
      && c.value.ts == Timestamp(ts, now)
      && c.value.nonce == Nonce(nonce, draw)
      && MacEncode(p, s.macKey, BaseString(c.value.ts, c.value.nonce, Some(httpMethod), uri, s.sighost, None), None)
         == Ok(c.value.mac)
  {
    var t := Timestamp(ts, now);
    var n := Nonce(nonce, draw);
    var base := BaseString(t, n, Some(httpMethod), uri, s.sighost, None);
    match MacEncode(p, s.macKey, base, None)
    case Err(e) => Err(e)
    case Ok(mac) =>
      var c := Credentials(Interpolate(s.accessToken, p.inspect), t, n, mac);
      MacHasNoBreak(p, s.macKey, base, None);
      assert Quoteless(c.id) && Quoteless(t) && Quoteless(n) ==> ParseHeader(FormatHeader(c)) == Some(c) by {
        if Quoteless(c.id) && Quoteless(t) && Quoteless(n) {
          ParseFormatHeader(c);
        }
      }
      Ok(FormatHeader(c))
  }

  /** A supplied timestamp and nonce make the header independent of the clock and the draw. */
  lemma AuthHeaderDeterministic(p: Library.Primitives, s: OauthSession.Session, httpMethod: string, uri: string,
                                ts: string, nonce: string, now1: int, draw1: nat, now2: int, draw2: nat)
    requires draw1 < Text.Pow10(NonceDigits) && draw2 < Text.Pow10(NonceDigits)
    ensures AuthHeader(p, s, httpMethod, uri, Some(ts), Some(nonce), now1, draw1)
         == AuthHeader(p, s, httpMethod, uri, Some(ts), Some(nonce), now2, draw2)
  {
  }

  /** A generated timestamp (for a clock after 1970) and nonce never hold a double quote. */
  lemma GeneratedQuoteless(now: int, draw: nat)
    requires now >= 0 && draw < Text.Pow10(NonceDigits)
    ensures Quoteless(Timestamp(None, now)) && Quoteless(Nonce(None, draw))
  {
    var t := Timestamp(None, now);
    var n := Nonce(None, draw);
    assert forall i :: 0 <= i < |t| ==> Text.IsDigit(t[i]);
    assert forall i :: 1 <= i < |n| ==> n[i] == n[1..][i - 1];
    assert forall i :: 0 <= i < |n| ==> n[i] != '"';
  }
}

=== FILE: text.dfy ===
/**
 The handful of Ruby String and Integer operations the session class relies on:
 `Array#join`, `String#chomp`, `String#rjust`, ASCII `upcase`/`downcase`/
 `capitalize` (Ruby 1.9 folds ASCII letters only), `Integer#to_s`, and the
 substring test behind `String#[]`. `Fields` is not a Ruby call: it is the
 reader that undoes `Join`, used to state what a joined string carries.
 */
module Text {

  // ---------------------------------------------------------------------------
  // Decimal digits

  predicate IsDigit(c: char) {
    '0' <= c <= '9'
  }

  predicate IsDecimal(s: string) {
    forall i :: 0 <= i < |s| ==> IsDigit(s[i])
  }

  function DigitChar(d: nat): (c: char)
    requires d < 10
    ensures IsDigit(c) && c as int - '0' as int == d
  {
    ('0' as int + d) as char
  }

  /** The number a string of decimal digits denotes (most significant first). */
  function DecimalValue(s: string): nat
    requires IsDecimal(s)
    decreases |s|
  {
    if |s| == 0 then 0
    else DecimalValue(s[..|s| - 1]) * 10 + (s[|s| - 1] as int - '0' as int)
  }

  function Pow10(k: nat): (r: nat)
    ensures r >= 1
  {
    if k == 0 then 1 else 10 * Pow10(k - 1)
  }

  /**
   `Integer#to_s` for a non-negative integer: the shortest decimal numeral,
   which reads back as the same number.
   */
  function NatToS(n: nat): (r: string)
    ensures |r| >= 1 && IsDecimal(r)
    ensures DecimalValue(r) == n
    ensures |r| > 1 ==> r[0] != '0'
    decreases n
  {
    if n < 10 then [DigitChar(n)]
    else
      var prefix := NatToS(n / 10);
      var r := prefix + [DigitChar(n % 10)];
      assert r[..|r| - 1] == prefix;
      r
  }

  /** `Integer#to_s` for any integer: a leading minus sign for a negative one. */
  function IntToS(i: int): (r: string)
    ensures i >= 0 ==> r == NatToS(i)
    ensures i < 0 ==> r == "-" + NatToS(-i)
  {
    if i < 0 then "-" + NatToS(-i) else NatToS(i)
  }

  /** A number below 10^k has at most k digits. */
  lemma {:induction false} NatToSLength(n: nat, k: nat)
    requires k >= 1 && n < Pow10(k)
    ensures |NatToS(n)| <= k
    decreases k
  {
    if n >= 10 {
      assert n / 10 < Pow10(k - 1);
      NatToSLength(n / 10, k - 1);
    }
  }

  /** Leading zeros do not change the value of a numeral. */
  lemma {:induction false} LeadingZeros(z: nat, s: string)
    requires IsDecimal(s)
    ensures IsDecimal(seq(z, _ => '0') + s)
    ensures DecimalValue(seq(z, _ => '0') + s) == DecimalValue(s)
    decreases |s|
  {
    var t := seq(z, _ => '0') + s;
    if |s| == 0 {
      assert t == seq(z, _ => '0');
      ZerosValue(z);
    } else {
      assert t[..|t| - 1] == seq(z, _ => '0') + s[..|s| - 1];
      LeadingZeros(z, s[..|s| - 1]);
      assert s[..|s| - 1] + [s[|s| - 1]] == s;
    }
  }

  lemma {:induction false} ZerosValue(z: nat)
    ensures IsDecimal(seq(z, _ => '0'))
    ensures DecimalValue(seq(z, _ => '0')) == 0
    decreases z
  {
    if z > 0 {
      assert seq(z, _ => '0')[..z - 1] == seq(z - 1, _ => '0');
      ZerosValue(z - 1);
    }
  }

  // ---------------------------------------------------------------------------
  // String#rjust, String#chomp, Array#join

  /** `s.rjust(width, pad)` with a one-character pad. */
  function RJust(s: string, width: nat, pad: char): (r: string)
    ensures |r| == if |s| >= width then |s| else width
    ensures r[|r| - |s|..] == s
    ensures forall i :: 0 <= i < |r| - |s| ==> r[i] == pad
  {
    if |s| >= width then s else seq(width - |s|, _ => pad) + s
  }

  /** A number below ten to the `k`, right-justified to width `k` with zeros: `k` digits that read back as it. */
  lemma PaddedNumeral(n: nat, k: nat)
    requires k >= 1 && n < Pow10(k)
    ensures var r := RJust(NatToS(n), k, '0');
      |r| == k && IsDecimal(r) && DecimalValue(r) == n
  {
    var digits := NatToS(n);
    NatToSLength(n, k);
    var zeros := seq(k - |digits|, _ => '0');
    if |digits| == k {
      assert zeros + digits == digits;
    }
    assert RJust(digits, k, '0') == zeros + digits;
    LeadingZeros(k - |digits|, digits);
  }

  /** `s.chomp`: drops one trailing "\r\n", "\n" or "\r", if there is one. */
  function Chomp(s: string): (r: string)
    ensures r <= s && |s| - 2 <= |r|
    ensures |r| < |s| <==> (|s| > 0 && (s[|s| - 1] == '\n' || s[|s| - 1] == '\r'))
    // a trailing "\r\n" goes as one line ending, and two characters go only then
    ensures |s| >= 2 && s[|s| - 2..] == "\r\n" ==> r == s[..|s| - 2]
    ensures |r| == |s| - 2 ==> |s| >= 2 && s[|s| - 2..] == "\r\n"
  {
    if |s| >= 2 && s[|s| - 2..] == "\r\n" then s[..|s| - 2]
    else if |s| >= 1 && (s[|s| - 1] == '\n' || s[|s| - 1] == '\r') then s[..|s| - 1]
    else s
  }

  /** `chomp` takes back a newline appended to a line that does not end in a carriage return. */
  lemma ChompNewline(e: string)
    requires |e| == 0 || e[|e| - 1] != '\r'
    ensures Chomp(e + "\n") == e
  {
    var s := e + "\n";
    if |e| > 0 {
      assert s[|s| - 2..][0] == e[|e| - 1];
    }
    assert s[..|s| - 1] == e;
  }

  /** `parts.join(sep)`: the pieces in order, the separator between each two. */
  function Join(parts: seq<string>, sep: string): (r: string)
    ensures |parts| == 0 ==> r == ""
    ensures |parts| == 1 ==> r == parts[0]
    ensures |parts| >= 2 ==> parts[0] + sep <= r
    decreases |parts|
  {
    if |parts| == 0 then ""
    else if |parts| == 1 then parts[0]
    else parts[0] + sep + Join(parts[1..], sep)
  }

  /** Joining a piece in front of at least one other puts the separator between them. */
  lemma JoinCons(x: string, rest: seq<string>, sep: string)
    requires |rest| >= 1
    ensures Join([x] + rest, sep) == x + sep + Join(rest, sep)
  {
    assert ([x] + rest)[1..] == rest;
  }

  lemma JoinThree(a: string, b: string, c: string, sep: string)
    ensures Join([a, b, c], sep) == a + sep + b + sep + c
  {
    JoinCons(b, [c], sep);
    JoinCons(a, [b, c], sep);
    assert [a] + [b, c] == [a, b, c];
  }

  /** Joining one more piece appends the separator and that piece. */
  lemma {:induction false} JoinSnoc(parts: seq<string>, x: string, sep: string)
    requires |parts| >= 1
    ensures Join(parts + [x], sep) == Join(parts, sep) + sep + x
    decreases |parts|
  {
    if |parts| == 1 {
      assert (parts + [x])[1..] == [x];
    } else {
      assert (parts + [x])[1..] == parts[1..] + [x];
      JoinSnoc(parts[1..], x, sep);
    }
  }

  /**
   The pieces of `s` between occurrences of `c`, empty pieces included: the
   reader that undoes `Join` with a one-character separator.
   */
  function Fields(s: string, c: char): (r: seq<string>)
    ensures |r| >= 1
    decreases |s|
  {
    if |s| == 0 then [""]
    else if s[0] == c then [""] + Fields(s[1..], c)
    else
      var rest := Fields(s[1..], c);
      [[s[0]] + rest[0]] + rest[1..]
  }

  lemma {:induction false} FieldsPlain(a: string, c: char)
    requires c !in a
    ensures Fields(a, c) == [a]
    decreases |a|
  {
    if |a| > 0 {
      FieldsPlain(a[1..], c);
      assert [a[0]] + a[1..] == a;
    }
  }

  lemma {:induction false} FieldsCons(a: string, c: char, b: string)
    requires c !in a
    ensures Fields(a + [c] + b, c) == [a] + Fields(b, c)
    decreases |a|
  {
    var s := a + [c] + b;
    if |a| == 0 {
      assert s == [c] + b;
      assert s[1..] == b;
    } else {
      assert s[0] == a[0];
      assert s[1..] == a[1..] + [c] + b;
      FieldsCons(a[1..], c, b);
      assert [a[0]] + a[1..] == a;
    }
  }

  /** Joining pieces free of the separator and reading the fields back is the identity. */
  lemma {:induction false} FieldsOfJoin(parts: seq<string>, c: char)
    requires |parts| >= 1
    requires forall i :: 0 <= i < |parts| ==> c !in parts[i]
    ensures Fields(Join(parts, [c]), c) == parts
    decreases |parts|
  {
    if |parts| == 1 {
      FieldsPlain(parts[0], c);
    } else {
      FieldsOfJoin(parts[1..], c);
      FieldsCons(parts[0], c, Join(parts[1..], [c]));
      assert [parts[0]] + parts[1..] == parts;
    }
  }

  // ---------------------------------------------------------------------------
  // Substrings and ASCII case

  /** `sub` occurs somewhere in `s` (the test behind `s[sub]`). */
  predicate Occurs(sub: string, s: string)
    decreases |s|
  {
    sub <= s || (|s| > 0 && Occurs(sub, s[1..]))
  }

  /** Where the first occurrence of `sub` in `s` starts. */
  function FirstAt(sub: string, s: string): (k: nat)
    requires Occurs(sub, s)
    ensures k + |sub| <= |s| && s[k..k + |sub|] == sub
    ensures forall j :: 0 <= j < k ==> !StartsAt(sub, s, j)
    decreases |s|
  {
    if sub <= s then 0
    else
      var k := FirstAt(sub, s[1..]);
      forall j | 0 <= j < k + 1
        ensures !StartsAt(sub, s, j)
      {
        if j > 0 {
          assert s[j..] == s[1..][j - 1..];
          assert !StartsAt(sub, s[1..], j - 1);
        }
      }
      1 + k
  }

  /** `sub` occurs in `s` at position `j`. */
  predicate StartsAt(sub: string, s: string, j: nat)
    requires j <= |s|
  {
    sub <= s[j..]
  }

  /** `s[sub] = v` on a String in which `sub` occurs: the first occurrence is replaced. */
  function ReplaceFirst(s: string, sub: string, v: string): (r: string)
    ensures !Occurs(sub, s) ==> r == s
    ensures Occurs(sub, s) ==>
      var k := FirstAt(sub, s);
      r == s[..k] + v + s[k + |sub|..]
    decreases |s|
  {
    if sub <= s then v + s[|sub|..]
    else if |s| == 0 then s
    else
      var rest := ReplaceFirst(s[1..], sub, v);
      if Occurs(sub, s[1..]) then
        var k := FirstAt(sub, s[1..]);
        FirstAtStep(s, sub);
        ConsSplit(s, k, |sub|, v);
        [s[0]] + rest
      else [s[0]] + rest
  }

  /** Past a first character that does not start `sub`, the first occurrence is one place further. */
  lemma FirstAtStep(s: string, sub: string)
    requires |s| > 0 && !(sub <= s) && Occurs(sub, s[1..])
    ensures Occurs(sub, s) && FirstAt(sub, s) == FirstAt(sub, s[1..]) + 1
  {
  }

  lemma ConsSplit(s: string, k: nat, m: nat, v: string)
    requires |s| > 0 && k + m <= |s| - 1
    ensures [s[0]] + (s[1..][..k] + v + s[1..][k + m..]) == s[..k + 1] + v + s[k + 1 + m..]
  {
    var t := s[1..];
    assert s[..k + 1] == [s[0]] + t[..k];
    assert s[k + 1 + m..] == t[k + m..];
  }

  function UpChar(c: char): char {
    if 'a' <= c <= 'z' then (c as int - 32) as char else c
  }

  function DownChar(c: char): char {
    if 'A' <= c <= 'Z' then (c as int + 32) as char else c
  }

  /** `s.upcase` (ASCII letters only). */
  function Upcase(s: string): (r: string)
    ensures |r| == |s|
    ensures forall i :: 0 <= i < |s| ==> r[i] == UpChar(s[i])
  {
    seq(|s|, i requires 0 <= i < |s| => UpChar(s[i]))
  }

  /** `s.downcase` (ASCII letters only). */
  function Downcase(s: string): (r: string)
    ensures |r| == |s|
    ensures forall i :: 0 <= i < |s| ==> r[i] == DownChar(s[i])
  {
    seq(|s|, i requires 0 <= i < |s| => DownChar(s[i]))
  }

  /** `s.capitalize`: first character upper-cased, the rest lower-cased. */
  function Capitalize(s: string): (r: string)
    ensures |r| == |s|
    ensures |s| > 0 ==> r[0] == UpChar(s[0]) && r[1..] == Downcase(s[1..])
  {
    if |s| == 0 then "" else [UpChar(s[0])] + Downcase(s[1..])
  }
}

=== FILE: values.dfy ===
/**
 Ruby objects as the session class sees them.

 Every value that enters `SmbOauthSession` from outside (the configuration hash,
 a parsed JSON response, a user record handed to `set_sm_user`) is a tree of
 nil, booleans, integers, strings, arrays and string-keyed hashes. This module
 fixes that shape, Ruby's notion of truthiness, `obj[key]` with a string key,
 string interpolation, and the exceptions the class can raise.
 */
module Values {
  import Text

  datatype Value =
    | Nil
    | Bool(b: bool)
    | Int(i: int)
    | Str(s: string)
    | Arr(items: seq<Value>)
    | Hash(entries: map<string, Value>)

  /** The exceptions the session class raises, directly or through a library call. */
  datatype RubyError =
    | ArgumentError                // wrong number of arguments, e.g. Net::HTTPServerError.new(msg)
    | ServerError(code: int)       // the server error login_as means to raise for a 5xx status
    | ClientError(code: int)       // the client error login_as means to raise for another 4xx status
    | NoMethodError                // e.g. nil['username']
    | TypeError                    // e.g. an Array indexed by a String, a nil HMAC key
    | NameError                    // const_get of an unknown request class
    | ParserError                  // JSON.parse of a malformed body
    | IndexError                   // String#[]= with a substring that does not occur

  datatype Result<T> = Ok(value: T) | Err(error: RubyError)

  datatype Option<T> = None | Some(value: T)

  /** Only nil and false are false in a Ruby condition (`x || default`, `if x`). */
  predicate Truthy(v: Value) {
    !(v.Nil? || v == Bool(false))
  }

  /** `h[key]` on a Hash: a missing key reads as nil. */
  function Fetch(m: map<string, Value>, key: string): (r: Value)
    ensures key in m ==> r == m[key]
    ensures key !in m ==> r == Nil
  {
    if key in m then m[key] else Nil
  }

  /**
   `v[key]` with a String key, for each kind of receiver: a Hash looks the key up,
   a String answers the key itself when it occurs as a substring (else nil), an
   Array or Integer rejects a String index, and nil or a boolean has no `[]`.
   */
  function Index(v: Value, key: string): (r: Result<Value>)
    ensures r.Ok? <==> (v.Hash? || v.Str?)
    ensures r.Err? ==> r.error == TypeError || r.error == NoMethodError
    ensures v.Hash? ==> r == Ok(Fetch(v.entries, key))
    ensures v.Str? ==> r == Ok(if Text.Occurs(key, v.s) then Str(key) else Nil)
    ensures v.Arr? || v.Int? ==> r == Err(TypeError)
    ensures v.Nil? || v.Bool? ==> r == Err(NoMethodError)
  {
    match v
    case Hash(m) => Ok(Fetch(m, key))
    case Str(s) => Ok(if Text.Occurs(key, s) then Str(key) else Nil)
    case Arr(_) => Err(TypeError)
    case Int(_) => Err(TypeError)
    case Nil => Err(NoMethodError)
    case Bool(_) => Err(NoMethodError)
  }

  /**
   `"#{v}"`: nil interpolates as the empty string, strings as themselves,
   booleans and integers as their literal text; arrays and hashes use their
   `inspect` text, which is supplied by the caller.
   */
  function Interpolate(v: Value, inspect: Value -> string): (r: string)
    ensures v.Str? ==> r == v.s
    ensures v.Nil? ==> r == ""
    ensures v.Int? && v.i >= 0 ==> Text.IsDecimal(r) && Text.DecimalValue(r) == v.i
  {
    match v
    case Nil => ""
    case Bool(b) => if b then "true" else "false"
    case Int(i) => Text.IntToS(i)
    case Str(s) => s
    case Arr(_) => inspect(v)
    case Hash(_) => inspect(v)
  }

  /** Ruby's `Array#flatten`: nested arrays are spliced in, recursively, in order. */
  function Flatten(xs: seq<Value>): (r: seq<Value>)
    ensures forall i :: 0 <= i < |r| ==> !r[i].Arr?
    ensures (forall i :: 0 <= i < |xs| ==> !xs[i].Arr?) ==> r == xs
    decreases xs
  {
    if |xs| == 0 then []
    else
      var head := match xs[0] case Arr(ys) => Flatten(ys) case _ => [xs[0]];
      head + Flatten(xs[1..])
  }

  /** Flattening distributes over concatenation. */
  lemma {:induction false} FlattenAppend(a: seq<Value>, b: seq<Value>)
    ensures Flatten(a + b) == Flatten(a) + Flatten(b)
    decreases |a|
  {
    if |a| == 0 {
      assert a + b == b;
    } else {
      assert (a + b)[0] == a[0];
      assert (a + b)[1..] == a[1..] + b;
      FlattenAppend(a[1..], b);
    }
  }

  /** A nested array contributes exactly its own flattened elements. */
  lemma FlattenNested(ys: seq<Value>)
    ensures Flatten([Arr(ys)]) == Flatten(ys)
  {
    assert [Arr(ys)][1..] == [];
  }

  /** Flattening an already flattened array changes nothing. */
  lemma FlattenIdempotent(xs: seq<Value>)
    ensures Flatten(Flatten(xs)) == Flatten(xs)
  {
  }
}
